=== FILE: README.md ===
# Native media-frame ring buffer: a Dafny model

This project models the frame-buffering core of a Flutter WebRTC plugin.
Decoded or captured media frames are copied into a bounded ring of
reusable slots. One ring exists per stream key. A consumer in the Dart
runtime pops the frames.

- **Slot** (`MediaFrame`, module `MediaFrame`). A growable byte cell with a
  size, a capacity, a media type, a timestamp and video or audio metadata.
  It only grows, and a failed grow leaves it untouched.
- **Ring** (`NativeBuffer`, module `NativeBuffer`). A fixed array of slots
  with a write index, a read index and a count. A push into a full ring
  overwrites the oldest unread frame. A push fails only when growing its
  slot fails. A pop hands out the oldest unread frame. The ring is related
  to an abstract queue, `Ring.Unread()`: the payloads of its unread frames,
  oldest first. A push keeps the last `capacity` of
  `Unread() + [new frame]`. A pop removes the head of `Unread()`.
- **Registry** (`native_buffer_api.cpp`, module `NativeBufferApi`). It maps
  keys to rings and keys to Dart ports, and holds the one-time "Dart API
  armed" flag. The messages posted to Dart ports are kept as a log. Init is
  idempotent. Pushes and pops on unknown keys fail at once. A successful
  push, and only that, notifies the key's port. `free` drops both entries.
- **Java side**:
  - `VideoDecoderBypass`: maps codec names to codes, initialises its ring
    lazily on the first decode, and pushes every encoded frame.
  - `AudioBufferUtil`: one audio ring under a fixed key, guarded by an
    `initialized` flag.
  - `CustomVideoDecoderFactory`: pairs queued track ids with created
    decoders in FIFO order, and chooses the software or the wrapped codec
    list.

Each exported entry point is one pure transition. It takes the state and
returns the result code and the new state. Where the source runs an entry
point as several locked sections (registry lookup, ring operation, port
lookup), the model runs them together as that one step. Null pointers and
null Java references are `Option.None`. Allocation outcomes, the Dart
runtime's verdict and the wall clock are parameters.

Three behaviours of the code are easy to miss:
- The ring itself does not reject an empty frame. Only the exported push
  entry points check for a null key, null data or a zero size.
- `current_max_frame_buffer_size_` is not "the largest size ever written".
  It is raised only when a push had to grow its slot
  (`NativeBuffer.PushInternal`).
- Re-initialising an existing key with invalid sizes is not a success. The
  argument check comes first and returns 0.

## Model

| member | source | states |
|---|---|---|
| MediaFrame.CodecOfId | android/src/main/cpp/NativeBuffer.h:11-18 | codes 0..5 and only those name a codec, and each codec's code maps back to it |
| MediaFrame.NewFrame | android/src/main/cpp/NativeBuffer.h:49-61 | a new slot is valid, empty, has exactly the requested capacity, is tagged video with time 0 and codec UNKNOWN, and reads back as an empty payload |
| MediaFrame.EnsureCapacity | android/src/main/cpp/NativeBuffer.h:69-82 | succeeds iff the request fits or the allocation succeeds; a fitting request or a failed allocation leaves the slot unchanged; capacity never shrinks; on success capacity is at least the request; a real grow sets capacity to exactly the request and size to 0, keeping the tags |
| MediaFrame.GrowthIsSticky | android/src/main/cpp/NativeBuffer.h:69-78 | after a successful grow to n, any later request for at most n succeeds without reallocation, whatever the allocator would do |
| MediaFrame.Store | ios/Classes/NativeBuffer.cpp:40-44 | writing a frame into a slot that can hold it keeps the slot valid and its capacity, and reading the slot back yields exactly the bytes, type, timestamp and metadata written |
| NativeBuffer.New | ios/Classes/NativeBuffer.cpp:6-21 | a non-positive capacity or slot size is InvalidArgument; a failed allocation is OutOfMemory; otherwise the ring is valid with capacity slots of the initial size, all indices 0 and no unread frame |
| NativeBuffer.AppendWhenRoom | ios/Classes/NativeBuffer.cpp:40-46 | writing at writeIndex of a non-full ring and advancing keeps the invariant and appends exactly the new frame to the unread frames |
| NativeBuffer.OverwriteWhenFull | ios/Classes/NativeBuffer.cpp:35-46 | in a full ring the write slot is the oldest frame's slot; overwriting it and advancing both indices drops exactly the oldest unread frame and appends the new one |
| NativeBuffer.Place | ios/Classes/NativeBuffer.cpp:35-46 | once the slot can hold the frame, evicting the oldest frame when full, storing and advancing yields a valid ring whose unread frames are the last capacity of the old ones plus the new frame, with count min(count+1, capacity) and only the write slot replaced |
| NativeBuffer.PushInternal | ios/Classes/NativeBuffer.cpp:23-50 | returns -1 exactly when the frame does not fit its slot and the grow fails, and then nothing changes; otherwise returns 0, the unread frames become the last capacity frames of the old ones plus the new one, count becomes min(count+1, capacity), the indices advance modulo capacity, only the write slot changes, and the max size rises to the frame size only on a grow |
| NativeBuffer.PushVideoFrame | ios/Classes/NativeBuffer.cpp:52-62 | fails (-1) exactly when the frame does not fit its slot and the grow fails, changing nothing; otherwise the unread frames become the last capacity of the old ones followed by the frame, tagged video with its five video fields; only the write slot changes, it does not shrink, and the write index advances by one |
| NativeBuffer.PushAudioFrame | ios/Classes/NativeBuffer.cpp:64-70 | fails (-1) exactly when the frame does not fit its slot and the grow fails, changing nothing; otherwise the unread frames become the last capacity of the old ones followed by the frame, tagged audio with its rate and channels; only the write slot changes, it does not shrink, and the write index advances by one |
| NativeBuffer.PopAdvances | ios/Classes/NativeBuffer.cpp:76-77 | advancing readIndex modulo capacity and decrementing count keeps the invariant and removes exactly the oldest unread frame |
| NativeBuffer.PopFrame | ios/Classes/NativeBuffer.cpp:72-81 | with a frame available, hands out the slot at readIndex, which holds the oldest unread frame; the unread frames lose exactly their head; no slot's contents change |
| NativeBuffer.PushAll | ios/Classes/NativeBuffer.cpp:23-50 | any run of successful pushes leaves as unread frames the last capacity frames of the old unread frames followed by the pushed ones, in push order |
| NativeBuffer.PopAll | ios/Classes/NativeBuffer.cpp:72-81 | n pops return the n oldest unread frames in order and leave the rest |
| NativeBuffer.OverwriteKeepsNewest | ios/Classes/NativeBuffer.cpp:35-46 | pushing capacity+k frames into an empty ring and then popping capacity times yields exactly the last capacity frames in push order, leaving the ring empty |
| NativeBuffer.EvictsOldestOfFour | ios/Classes/NativeBuffer.cpp:35-38 | with 3 slots of 64 bytes, pushing A, B, C, D of 32 bytes and popping three times returns B, C, D, after which the ring is empty |
| NativeBuffer.OversizedFrameRoundTrip | ios/Classes/NativeBuffer.cpp:26-33 | a frame larger than its slot is accepted when the allocation succeeds, the slot grows to hold it, and the popped slot holds exactly those bytes |
| NativeBufferApi.InitNativeBufferFFI | android/src/main/cpp/native_buffer_api.cpp:47-61 | a null key or non-positive size returns 0 with no change; an existing key returns 1 and keeps its ring; a new key returns 1 iff construction succeeds, adding an empty ring of the requested capacity with both indices at 0, whose slots are all fresh slots of maxBufferSize bytes, and touching no other key, port, flag or log |
| NativeBufferApi.InitIsIdempotent | android/src/main/cpp/native_buffer_api.cpp:53-60 | a second init of a key, with any valid sizes, returns 1 and changes nothing, so the first ring keeps its original capacity |
| NativeBufferApi.NotifyDartFrameReady | android/src/main/cpp/native_buffer_api.cpp:18-36 | appends one message 1 to the key's port iff the API is armed and a positive port is registered for the key; nothing else changes |
| NativeBufferApi.HandlePushResult | android/src/main/cpp/native_buffer_api.cpp:38-45 | a ring result of 0 becomes 1 and notifies; any other result becomes 0 with no change |
| NativeBufferApi.PushVideoNativeBufferFFI | android/src/main/cpp/native_buffer_api.cpp:63-81 | a null key, null data, zero size or unknown key returns 0 with no change; otherwise returns 1 exactly when the ring push returned 0, then stores the pushed ring, keeps every port and the armed flag, and notifies; a 0 result changes nothing |
| NativeBufferApi.PushAudioNativeBufferFFI | android/src/main/cpp/native_buffer_api.cpp:83-100 | a null key, null data, zero size or unknown key returns 0 with no change; otherwise returns 1 exactly when the ring's audio push returned 0, then stores the pushed ring, keeps every port and the armed flag, and notifies; a 0 result changes nothing |
| NativeBufferApi.VideoPushKeepsNewest | android/src/main/cpp/native_buffer_api.cpp:63-81 | a video push returns 1 exactly when key, data and size pass the guards, the key has a ring, and the frame fits its slot or the slot can grow; then that ring's unread frames become the last capacity of the old ones followed by the frame, only its write slot changes and does not shrink, and no other ring, no key set and no port changes |
| NativeBufferApi.AudioPushKeepsNewest | android/src/main/cpp/native_buffer_api.cpp:83-100 | an audio push returns 1 exactly when key, data and size pass the guards, the key has a ring, and the frame fits its slot or the slot can grow; then that ring's unread frames become the last capacity of the old ones followed by the frame, tagged audio with its rate and channels, only its write slot changes and does not shrink, and no other ring, no key set and no port changes |
| NativeBufferApi.PushNotifiesOnlyOnSuccess | android/src/main/cpp/native_buffer_api.cpp:18-45 | a video push posts at most one message, to the key's port, and posts one exactly when it returns 1 on an armed API with a port for the key |
| NativeBufferApi.PopNativeBufferFFI | android/src/main/cpp/native_buffer_api.cpp:103-119 | a null or unknown key returns null and touches nothing; an empty ring makes the call wait with no change; otherwise the slot at the ring's read index, holding the oldest unread frame, is handed out and that frame removed; the ring keeps its capacity and its slots, and no other key changes |
| NativeBufferApi.FreeNativeBufferFFI | android/src/main/cpp/native_buffer_api.cpp:121-134 | removes the key from both the ring map and the port map and keeps every other entry; a null key changes nothing |
| NativeBufferApi.FreeUnknownIsNoOp | android/src/main/cpp/native_buffer_api.cpp:121-134 | freeing a key with neither a ring nor a port leaves the state unchanged |
| NativeBufferApi.FreedKeyIsUnknown | android/src/main/cpp/native_buffer_api.cpp:47-77 | after free, a push on the key returns 0 and a pop returns null, neither changing anything, the key has no port, and a valid init on it returns 1 with a fresh empty ring of the requested capacity |
| NativeBufferApi.InitializeDartApiDL | android/src/main/cpp/native_buffer_api.cpp:136-148 | once armed, returns true and changes nothing; otherwise arms and returns true iff the handle is non-null and the runtime's init succeeds, and only the flag can change |
| NativeBufferApi.ArmedStaysArmed | android/src/main/cpp/native_buffer_api.cpp:136-139 | after a successful arm every later call returns true and changes nothing, whatever its handle |
| NativeBufferApi.RegisterDartPort | android/src/main/cpp/native_buffer_api.cpp:150-160 | a null name or a port of 0 or less returns false with no change; otherwise returns true and records the port for the name, replacing any earlier one |
| NativeBufferApi.LastRegistrationWins | android/src/main/cpp/native_buffer_api.cpp:155-158 | registering two ports under one name leaves the same state as registering only the second |
| NativeBufferApi.PushThenPopDeliversFrame | android/src/main/cpp/native_buffer_api.cpp:63-81 | on an armed API, after init and port registration, a video push returns 1, posts exactly one message to that port, and the next pop returns the pushed bytes and metadata |
| VideoDecoderBypass.CodecStringToInt | android/src/main/java/org/webrtc/video/VideoDecoderBypass.java:31-40 | null gives 0; otherwise the result is 0 iff none of h264, h265, vp8, vp9, av1 occurs in the lower-cased name, and k > 0 iff the k-th token occurs and no earlier one does; so it is always a codec code 0..5 |
| VideoDecoderBypass.FirstMatchWins | android/src/main/java/org/webrtc/video/VideoDecoderBypass.java:33-38 | a name containing both VP8 and H264 maps to H264's code, because h264 is tried first |
| VideoDecoderBypass.NewDecoder | android/src/main/java/org/webrtc/video/VideoDecoderBypass.java:25-29 | a new decoder keeps its track id, stores the code that CodecStringToInt gives for the codec name (so 0..5, and 0 for a null name) and has not initialised its ring |
| VideoDecoderBypass.Prepare | android/src/main/java/org/webrtc/video/VideoDecoderBypass.java:63-74 | with the flag set it is a success that changes nothing; otherwise it is the native init of 30 slots of capacity+256 bytes; success keeps every existing ring and port, the armed flag and the message log, and adds at most the track's own ring; failure changes nothing |
| VideoDecoderBypass.PushEncoded | android/src/main/java/org/webrtc/video/VideoDecoderBypass.java:76-83 | OK exactly when the native push returned non-zero, and then the track's ring keeps the last capacity of its unread frames followed by the encoded frame, only its write slot changes and does not shrink, with no other ring, key or port changed, the armed flag kept, and one message posted to the track's port exactly when the API is armed and the track has a port; ERROR changes nothing; the flag ends up set |
| VideoDecoderBypass.Decode | android/src/main/java/org/webrtc/video/VideoDecoderBypass.java:56-84 | a null or non-direct buffer gives ERROR with no init, push or change; the first decode initialises the ring with 30 slots of capacity+256 bytes and sets the flag iff that returned non-zero, giving ERROR with no change otherwise; the result is OK exactly when the push returned non-zero; then the track's ring keeps the last capacity of its unread frames followed by the frame, only its write slot changes and does not shrink, and no other ring and no port changes; an ERROR after a successful init leaves exactly the state the init produced; on OK the armed flag is kept and one message is posted to the track's port exactly when the API is armed and the track has a port |
| VideoDecoderBypass.FirstDecodeCreatesRing | android/src/main/java/org/webrtc/video/VideoDecoderBypass.java:63-74 | the first decode of a fresh track with a non-empty direct buffer returns OK and creates a 30-slot ring whose slots all hold capacity+256 bytes, with exactly that frame unread |
| VideoDecoderBypass.Release | android/src/main/java/org/webrtc/video/VideoDecoderBypass.java:49-53 | returns OK, frees the track's ring and port, keeps every other track's ring and port, the armed flag and the message log, and leaves the decoder, including its ring-initialised flag, unchanged |
| VideoDecoderBypass.DecodeAfterReleaseFails | android/src/main/java/org/webrtc/video/VideoDecoderBypass.java:49-53 | since release keeps the flag, a later decode does not re-initialise and returns ERROR without changing anything |
| AudioBufferUtil.EnsureInitialized | android/src/main/java/org/webrtc/audio/AudioBufferUtil.java:18-24 | when initialised, returns true with no native call; otherwise the flag becomes, and the result is, whether native init under the fixed key returned non-zero; no other key is touched |
| AudioBufferUtil.EnsureInitializedIsIdempotent | android/src/main/java/org/webrtc/audio/AudioBufferUtil.java:18-24 | after a true result, every later call returns true and changes nothing |
| AudioBufferUtil.PushAudioSamples | android/src/main/java/org/webrtc/audio/AudioBufferUtil.java:26-31 | when not initialised, returns 0 with no push; returns 1 exactly when initialised, the fixed key has a ring, the block is non-empty and it fits its slot or the slot can grow; then that ring keeps the last capacity of its unread frames followed by the samples, tagged audio with the current time, and only its write slot changes and does not shrink; a 0 result changes nothing; no other key is touched; on 1 every port and the armed flag are kept and one message is posted to the fixed key's port exactly when the API is armed and that key has a port |
| AudioBufferUtil.SuccessivePushesKeepNewest | android/src/main/java/org/webrtc/audio/AudioBufferUtil.java:26-31 | two accepted blocks in a row leave the last capacity of the earlier frames followed by both blocks, in push order |
| AudioBufferUtil.Dispose | android/src/main/java/org/webrtc/audio/AudioBufferUtil.java:33-38 | when initialised, frees the fixed key's ring and port and clears the flag; otherwise does nothing; no other key, the armed flag and the message log are untouched |
| AudioBufferUtil.DisposeThenReinitialize | android/src/main/java/org/webrtc/audio/AudioBufferUtil.java:33-38 | after dispose, pushes return 0 with no change, and the next initialisation builds a fresh empty ring of the requested capacity |
| CustomVideoDecoderFactory.SetTrackId | android/src/main/java/org/webrtc/video/CustomVideoDecoderFactory.java:57-61 | the id is appended at the tail and the rest of the queue is kept |
| CustomVideoDecoderFactory.CreateDecoder | android/src/main/java/org/webrtc/video/CustomVideoDecoderFactory.java:40-47 | the new decoder gets the head of the queue, which is removed, and the codec code of the codec name; on an empty queue it gets a null id and the queue stays empty |
| CustomVideoDecoderFactory.DecodersPairedInOrder | android/src/main/java/org/webrtc/video/CustomVideoDecoderFactory.java:40-46 | successive decoders receive the queued ids in queue order, then null once the queue is empty, and the queue keeps exactly the ids not handed out |
| CustomVideoDecoderFactory.AnnouncedIdsReachDecodersInOrder | android/src/main/java/org/webrtc/video/CustomVideoDecoderFactory.java:57-61 | ids announced one by one reach as many created decoders in announcement order, and the queue ends empty |
| CustomVideoDecoderFactory.GetSupportedCodecs | android/src/main/java/org/webrtc/video/CustomVideoDecoderFactory.java:49-55 | returns the software list exactly when forcing is on and the forced list is empty, otherwise the wrapped list; forcing on with a null list throws a NullPointerException |
| CustomVideoDecoderFactory.SetForceSWCodec | android/src/main/java/org/webrtc/video/CustomVideoDecoderFactory.java:30-32 | sets the flag to the given value and keeps the list |
| CustomVideoDecoderFactory.SetForceSWCodecList | android/src/main/java/org/webrtc/video/CustomVideoDecoderFactory.java:34-36 | sets the list to the given value and keeps the flag |
| CustomVideoDecoderFactory.NewFactoryAdvertisesWrapped | android/src/main/java/org/webrtc/video/CustomVideoDecoderFactory.java:23-55 | a new factory advertises the wrapped list, and switching forcing on while the list is still empty selects the software list |
| CustomVideoDecoderFactory.SettersAreLastWriteWins | android/src/main/java/org/webrtc/video/CustomVideoDecoderFactory.java:30-36 | setting either field twice equals setting the second value once, and the codec-list choice depends only on the latest values |

## Left out

- Mutexes, condition variables and atomics. Each locked section is one
  atomic transition, and memory ordering is not modelled.
  `NativeBuffer.PopFrame` requires a frame to be available. At the registry
  level, a pop on an empty ring returns `Waiting` and changes nothing, which
  stands for the blocked call. What happens to a consumer waiting while its
  ring is freed is left undefined by the source and is not modelled.
- Interleavings inside an entry point. A push first looks the ring up under
  the registry lock, then releases that lock and pushes under the ring's own
  mutex (native_buffer_api.cpp:70-78). A `freeNativeBufferFFI` running in
  between destroys the ring the push still uses. The model does not cover
  that race. It also does not cover a port registered, replaced or freed
  between the ring push and the port lookup of the notification
  (native_buffer_api.cpp:23-29).
- Raw pointers. A pop returns the slot index and a copy of the slot, not
  memory. The model does not cover a consumer that keeps reading the
  returned pointer while later pushes reuse that slot.
- The Dart runtime. `Dart_InitializeApiDL` is a boolean parameter.
  `Dart_PostCObject_DL` appends to the `posted` log, and its own return
  value is ignored, as in the source.
- Allocation failure. It is a boolean parameter of `EnsureCapacity`, of
  `NativeBuffer.New` and of the entry points that may allocate.
- NativeBuffer.New: one flag covers the allocation of all slots. Which slot
  failed is not modelled, because the constructor's outcome does not depend
  on it.
- `MediaFrame::hasBuffer`. In the model a slot always has storage, so it
  would always be true.
- Machine widths. Sizes and timestamps are unbounded naturals and metadata
  fields are unbounded integers. The model does not cover:
  - `size_t` and `uint64_t` wrap-around;
  - a negative `captureTimeMs` becoming a large `uint64_t`;
  - Java `int` overflow in `capacity() + 256`.
- The C union's aliasing. Metadata is a tagged variant, so reading audio
  fields of a video-tagged slot is not expressible. The codec in video
  metadata is the raw integer the producer passed, because the source casts
  any `int` to `VideoCodecType`.
- VideoDecoderBypass.CodecStringToInt: lower-casing covers ASCII letters
  only. Java's `toLowerCase` is Unicode- and locale-aware, but no non-ASCII
  letter lower-cases into the ASCII tokens being searched for.
- AudioBufferUtil.PushAudioSamples: takes a non-null `samples` array. The
  glue hands a null array to `GetByteArrayElements`, where JNI leaves the
  behaviour undefined. A failed pinning of the array, which makes the glue
  return 0, is not modelled either.
- A null Java track id. A decoder created from an empty queue has one
  (`CustomVideoDecoderFactory.CreateDecoder`). The model treats it as the
  `None` key, which every native entry point refuses. In the source the
  glue passes the null string to `GetStringUTFChars`
  (VideoDecoderBypassJNI.cpp:10, 23, 47), where JNI leaves the behaviour
  undefined, so what a decoder with a null id really does is not modelled.
- JNI glue (`VideoDecoderBypassJNI.cpp`, `AudioBufferUtilJNI.cpp`). It only
  marshals values. A key that cannot be obtained is the `None` key. The
  pushed bytes are the whole direct buffer, whose capacity is the data
  size. An empty buffer is then refused by the zero-size check of the push
  entry point, just as the glue refuses it.
- `initDecode` and `getImplementationName`. They return constants and
  touch no state.
- Android logging and `System.currentTimeMillis()`. The time is the `now`
  parameter of `AudioBufferUtil.PushAudioSamples`.
- The WebRTC software and wrapped decoder factories. Their codec lists are
  parameters of `GetSupportedCodecs`.
- Declaration-only headers (`native_buffer_api.h`, `NativeBufferBridge.h`,
  `RTCVideoDecoderBypass.h`, the iOS `CustomVideoDecoderFactory.h`) and
  `FlutterRTCMediaStream.h`. Their implementations are not part of this
  model.

=== FILE: audio_buffer_util.dfy ===
/** The Android audio hook (AudioBufferUtil.java): one process-wide ring,
    under a fixed key, guarded by an `initialized` flag. */
module AudioBufferUtil {
  import opened Common
  import opened MediaFrame
  import NativeBuffer
  import NativeBufferApi

  /** The single key of every native call made here. */
  const AudioBufferKey: string := "webrtc_audio_output"

  /** The class's static flag together with the native state it drives. */
  datatype AudioState = AudioState(initialized: bool, api: NativeBufferApi.Api)

  /** The native state is changed at most at `AudioBufferKey`: every other
      key keeps its ring and its port. */
  ghost predicate OnlyAudioKeyChanged(a: NativeBufferApi.Api, a': NativeBufferApi.Api)
  {
    && (forall k :: k != AudioBufferKey ==> (k in a'.buffers <==> k in a.buffers))
    && (forall k :: k != AudioBufferKey && k in a.buffers ==> a'.buffers[k] == a.buffers[k])
    && (forall k :: k != AudioBufferKey ==> (k in a'.ports <==> k in a.ports))
    && (forall k :: k != AudioBufferKey && k in a.ports ==> a'.ports[k] == a.ports[k])
  }

  /** The result of a call and the state afterwards. */
  datatype AudioStep<R> = AudioStep(result: R, state: AudioState)

  /** `ensureInitialized`: when already initialised, answer true without a
      native call; otherwise initialise the ring and remember whether that
      returned non-zero. */
  function EnsureInitialized(st: AudioState, capacity: int, maxBufferSize: int, allocOk: bool): (s: AudioStep<bool>)
    requires st.api.Valid()
    ensures s.state.api.Valid()
    ensures s.result == s.state.initialized
    ensures st.initialized ==> s == AudioStep(true, st)
    ensures !st.initialized ==>
      var init := NativeBufferApi.InitNativeBufferFFI(st.api, Some(AudioBufferKey), capacity, maxBufferSize, allocOk);
      s.result == (init.result != 0) && s.state.api == init.api
    ensures s.result && !st.initialized ==> AudioBufferKey in s.state.api.buffers
    ensures OnlyAudioKeyChanged(st.api, s.state.api)
  {
    if st.initialized then AudioStep(true, st)
    else
      var init := NativeBufferApi.InitNativeBufferFFI(st.api, Some(AudioBufferKey), capacity, maxBufferSize, allocOk);
      AudioStep(init.result != 0, AudioState(init.result != 0, init.api))
  }

  /** Once initialised, further calls answer true and change nothing. */
  lemma EnsureInitializedIsIdempotent(st: AudioState, capacity: int, maxBufferSize: int, allocOk: bool,
                                      capacity': int, maxBufferSize': int, allocOk': bool)
    requires st.api.Valid()
    requires EnsureInitialized(st, capacity, maxBufferSize, allocOk).result
    ensures var s := EnsureInitialized(st, capacity, maxBufferSize, allocOk);
      EnsureInitialized(s.state, capacity', maxBufferSize', allocOk') == AudioStep(true, s.state)
  {
  }

  /** `pushAudioSamples`: 0 and no native call when not initialised;
      otherwise the native audio push under the fixed key, stamped with the
      current time `now` (the source reads the wall clock). It succeeds
      exactly when the ring exists, the block is non-empty and fits its slot
      or the slot can grow; the ring then keeps its last `capacity` frames
      followed by the new block. */
  function PushAudioSamples(st: AudioState, samples: seq<byte>, sampleRate: int, channels: int,
                            now: nat, allocOk: bool): (s: AudioStep<int>)
    requires st.api.Valid()
    ensures s.state.api.Valid()
    ensures s.state.initialized == st.initialized
    ensures !st.initialized ==> s == AudioStep(0, st)
    ensures s.result == 0 || s.result == 1
    ensures s.result == 0 ==> s.state == st
    ensures s.result == 1 <==>
      && st.initialized && AudioBufferKey in st.api.buffers && |samples| > 0
      && (|samples| <= st.api.buffers[AudioBufferKey].slots[st.api.buffers[AudioBufferKey].writeIndex].capacity
          || allocOk)
    ensures s.result == 1 ==>
      && AudioBufferKey in st.api.buffers
      && AudioBufferKey in s.state.api.buffers
      && var r := st.api.buffers[AudioBufferKey];
      && s.state.api.buffers[AudioBufferKey].capacity == r.capacity
      && NativeBuffer.WritesOnlyNextSlot(r, s.state.api.buffers[AudioBufferKey])
      && s.state.api.buffers[AudioBufferKey].Unread()
           == NativeBuffer.Keep(r.Unread() + [Payload(Audio, now, samples, AudioInfo(sampleRate, channels))], r.capacity)
      && s.state.api.buffers[AudioBufferKey].count > 0
      && s.state.api.buffers[AudioBufferKey].Unread()[s.state.api.buffers[AudioBufferKey].count - 1]
           == Payload(Audio, now, samples, AudioInfo(sampleRate, channels))
    ensures s.result == 1 ==>
      && s.state.api.ports == st.api.ports && s.state.api.armed == st.api.armed
      && s.state.api.posted == st.api.posted + (if st.api.armed && AudioBufferKey in st.api.ports
                                                then [NativeBufferApi.Post(st.api.ports[AudioBufferKey], 1)] else [])
    ensures OnlyAudioKeyChanged(st.api, s.state.api)
  {
    if !st.initialized then AudioStep(0, st)
    else
      var push := NativeBufferApi.PushAudioNativeBufferFFI(st.api, Some(AudioBufferKey), Some(samples),
                                                           sampleRate, channels, now, allocOk);
      NativeBufferApi.AudioPushKeepsNewest(st.api, Some(AudioBufferKey), Some(samples), sampleRate, channels,
                                           now, allocOk);
      AudioStep(push.result, st.(api := push.api))
  }

  /** Two accepted blocks in a row: the ring holds the last `capacity` of its
      earlier frames followed by both blocks, in push order. */
  lemma SuccessivePushesKeepNewest(st: AudioState, samples1: seq<byte>, samples2: seq<byte>,
                                   sampleRate: int, channels: int, now1: nat, now2: nat,
                                   allocOk1: bool, allocOk2: bool)
    requires st.api.Valid()
    ensures var a := PushAudioSamples(st, samples1, sampleRate, channels, now1, allocOk1);
      var b := PushAudioSamples(a.state, samples2, sampleRate, channels, now2, allocOk2);
      a.result == 1 && b.result == 1 ==>
        && AudioBufferKey in st.api.buffers && AudioBufferKey in b.state.api.buffers
        && var r := st.api.buffers[AudioBufferKey];
        b.state.api.buffers[AudioBufferKey].Unread() ==
          NativeBuffer.Keep(r.Unread() + [Payload(Audio, now1, samples1, AudioInfo(sampleRate, channels)),
                                          Payload(Audio, now2, samples2, AudioInfo(sampleRate, channels))],
                            r.capacity)
  {
    var a := PushAudioSamples(st, samples1, sampleRate, channels, now1, allocOk1);
    var b := PushAudioSamples(a.state, samples2, sampleRate, channels, now2, allocOk2);
    if a.result == 1 && b.result == 1 {
      var r := st.api.buffers[AudioBufferKey];
      var r1 := a.state.api.buffers[AudioBufferKey];
      var p1 := Payload(Audio, now1, samples1, AudioInfo(sampleRate, channels));
      var p2 := Payload(Audio, now2, samples2, AudioInfo(sampleRate, channels));
      assert r1.Unread() == NativeBuffer.Keep(r.Unread() + [p1], r.capacity) && r1.capacity == r.capacity;
      assert b.state.api.buffers[AudioBufferKey].Unread() == NativeBuffer.Keep(r1.Unread() + [p2], r.capacity);
      NativeBuffer.KeepAppend(r.Unread() + [p1], [p2], r.capacity);
      assert r.Unread() + [p1] + [p2] == r.Unread() + [p1, p2];
    }
  }

  /** `dispose`: when initialised, free the fixed key and clear the flag;
      otherwise do nothing. */
  function Dispose(st: AudioState): (st': AudioState)
    requires st.api.Valid()
    ensures st'.api.Valid()
    ensures !st'.initialized
    ensures !st.initialized ==> st' == st
    ensures st.initialized ==> AudioBufferKey !in st'.api.buffers && AudioBufferKey !in st'.api.ports
    ensures st'.api.armed == st.api.armed && st'.api.posted == st.api.posted
    ensures OnlyAudioKeyChanged(st.api, st'.api)
  {
    if st.initialized then AudioState(false, NativeBufferApi.FreeNativeBufferFFI(st.api, Some(AudioBufferKey)))
    else st
  }

  /** After `dispose`, pushes are refused until the next successful
      `ensureInitialized`, which builds a fresh, empty ring. */
  lemma DisposeThenReinitialize(st: AudioState, samples: seq<byte>, sampleRate: int, channels: int,
                                now: nat, allocOk: bool, capacity: int, maxBufferSize: int)
    requires st.api.Valid() && st.initialized
    requires capacity > 0 && maxBufferSize > 0
    ensures var d := Dispose(st);
      && PushAudioSamples(d, samples, sampleRate, channels, now, allocOk) == AudioStep(0, d)
      && var e := EnsureInitialized(d, capacity, maxBufferSize, true);
         && e.result
         && e.state.api.buffers[AudioBufferKey].capacity == capacity
         && e.state.api.buffers[AudioBufferKey].Unread() == []
  {
  }
}

=== FILE: common.dfy ===
/** Small vocabulary shared by every module of the model: bytes, optional
    values (the source's nullable pointers and references), a substring test,
    and the index arithmetic of a ring. */
module Common {

  /** One octet of frame data (`uint8_t` in the native code, `byte` in Java). */
  newtype byte = x: int | 0 <= x < 256

  /** A nullable value: `None` stands for a null pointer or a null reference. */
  datatype Option<+T> = None | Some(value: T)

  /** The value of an operation that may fail with an error of type `E`
      (a thrown exception in the source). */
  datatype Result<+T, +E> = Ok(value: T) | Err(error: E)

  /** `n` zero bytes: the contents of a freshly value-initialised `uint8_t[n]`. */
  function Zeros(n: nat): (z: seq<byte>)
    ensures |z| == n
    ensures forall i :: 0 <= i < n ==> z[i] == 0
  {
    seq(n, _ => 0)
  }

  /** `t` occurs in `s` starting at position `i`. */
  ghost predicate OccursAt(t: string, s: string, i: int)
  {
    0 <= i <= |s| - |t| && s[i..i + |t|] == t
  }

  /** The declarative meaning of "`t` occurs in `s`". */
  ghost predicate OccursIn(t: string, s: string)
  {
    exists i :: OccursAt(t, s, i)
  }

  /** An executable substring search (Java's `String.contains`). */
  function Contains(s: string, t: string): (b: bool)
    decreases |s|
  {
    if |s| < |t| then false
    else if s[..|t|] == t then true
    else Contains(s[1..], t)
  }

  /** The search answers exactly the declarative question, in both directions. */
  lemma {:induction false} ContainsIffOccurs(s: string, t: string)
    ensures Contains(s, t) <==> OccursIn(t, s)
    decreases |s|
  {
    if |s| < |t| {
    } else if s[..|t|] == t {
      assert OccursAt(t, s, 0);
    } else {
      ContainsIffOccurs(s[1..], t);
      if OccursIn(t, s) {
        var i :| OccursAt(t, s, i);
        assert i != 0;
        assert s[1..][i - 1..i - 1 + |t|] == s[i..i + |t|];
        assert OccursAt(t, s[1..], i - 1);
      }
      if OccursIn(t, s[1..]) {
        var i :| OccursAt(t, s[1..], i);
        assert s[i + 1..i + 1 + |t|] == s[1..][i..i + |t|];
        assert OccursAt(t, s, i + 1);
      }
    }
  }

  /** `x mod n` for an `x` below `2 * n`: at most one subtraction. Every ring
      index in the model is such a sum of two values below the capacity. */
  function Wrap(x: nat, n: nat): (y: nat)
    requires x < 2 * n
  {
    if x < n then x else x - n
  }

  /** The source's `%` agrees with `Wrap` wherever `Wrap` is defined. */
  lemma ModIsWrap(x: nat, n: nat)
    requires x < 2 * n
    ensures x % n == Wrap(x, n)
  {
    if x >= n {
      assert x == n + (x - n);
    }
  }
}

=== FILE: custom_video_decoder_factory.dfy ===
/** The Android decoder factory (CustomVideoDecoderFactory.java): track ids
    announced with `setTrackId` are handed, first in first out, to the
    decoders it creates; and a software-codec switch chooses which codec
    list it advertises. */
module CustomVideoDecoderFactory {
  import opened Common
  import VideoDecoderBypass

  /** The shared `trackQueue` (a static field, so one queue for all
      factories). A queued id may itself be null. */
  type TrackQueue = seq<Option<string>>

  /** A factory's own fields. The codec list may be set to null. */
  datatype Factory = Factory(forceSWCodec: bool, forceSWCodecs: Option<seq<string>>)

  /** A new factory: no forcing, and an empty list. */
  const NewFactory: Factory := Factory(false, Some([]))

  /** `setTrackId`: append to the tail of the queue. */
  function SetTrackId(q: TrackQueue, trackId: Option<string>): (q': TrackQueue)
    ensures |q'| == |q| + 1 && q'[..|q|] == q && q'[|q|] == trackId
  {
    q + [trackId]
  }

  /** A created decoder and the queue afterwards. */
  datatype Created = Created(decoder: VideoDecoderBypass.Decoder, queue: TrackQueue)

  /** `createDecoder`: take the head of the queue (null when it is empty) as
      the new decoder's track id. */
  function CreateDecoder(q: TrackQueue, codecName: Option<string>): (c: Created)
    ensures q == [] ==> c.queue == [] && c.decoder.trackId.None?
    ensures q != [] ==> c.decoder.trackId == q[0] && c.queue == q[1..]
    ensures !c.decoder.ringInitialized && 0 <= c.decoder.codecType <= 5
    ensures c.decoder.codecType == VideoDecoderBypass.CodecStringToInt(codecName)
  {
    var trackId := if q == [] then None else q[0];
    Created(VideoDecoderBypass.NewDecoder(trackId, codecName), if q == [] then [] else q[1..])
  }

  /** The decoders made by successive `createDecoder` calls, one per codec
      name, and the queue afterwards. */
  datatype CreatedMany = CreatedMany(decoders: seq<VideoDecoderBypass.Decoder>, queue: TrackQueue)

  function CreateDecoders(q: TrackQueue, codecNames: seq<Option<string>>): (c: CreatedMany)
    ensures |c.decoders| == |codecNames|
    decreases |codecNames|
  {
    if codecNames == [] then CreatedMany([], q)
    else
      var first := CreateDecoder(q, codecNames[0]);
      var rest := CreateDecoders(first.queue, codecNames[1..]);
      CreatedMany([first.decoder] + rest.decoders, rest.queue)
  }

  /** FIFO pairing: the `i`-th decoder created gets the `i`-th queued id, and
      decoders created after the queue ran dry get null. */
  lemma {:induction false} DecodersPairedInOrder(q: TrackQueue, codecNames: seq<Option<string>>)
    ensures var c := CreateDecoders(q, codecNames);
      && (forall i :: 0 <= i < |codecNames| ==>
            c.decoders[i].trackId == (if i < |q| then q[i] else None))
      && c.queue == (if |codecNames| <= |q| then q[|codecNames|..] else [])
    decreases |codecNames|
  {
    if codecNames != [] {
      var first := CreateDecoder(q, codecNames[0]);
      DecodersPairedInOrder(first.queue, codecNames[1..]);
      var c := CreateDecoders(q, codecNames);
      forall i | 0 <= i < |codecNames|
        ensures c.decoders[i].trackId == (if i < |q| then q[i] else None)
      {
        if i > 0 {
          assert c.decoders[i] == CreateDecoders(first.queue, codecNames[1..]).decoders[i - 1];
        }
      }
    }
  }

  /** Announcing ids one by one on an empty queue and then creating as many
      decoders hands the ids out in announcement order. */
  lemma AnnouncedIdsReachDecodersInOrder(ids: seq<Option<string>>, codecNames: seq<Option<string>>)
    requires |codecNames| == |ids|
    ensures var c := CreateDecoders(AnnounceAll([], ids), codecNames);
      && (forall i :: 0 <= i < |ids| ==> c.decoders[i].trackId == ids[i])
      && c.queue == []
  {
    var q := AnnounceAll([], ids);
    AnnounceAllAppends([], ids);
    assert q == ids;
    DecodersPairedInOrder(q, codecNames);
  }

  /** `setTrackId` for each id in turn. */
  function AnnounceAll(q: TrackQueue, ids: seq<Option<string>>): TrackQueue
    decreases |ids|
  {
    if ids == [] then q else AnnounceAll(SetTrackId(q, ids[0]), ids[1..])
  }

  lemma {:induction false} AnnounceAllAppends(q: TrackQueue, ids: seq<Option<string>>)
    ensures AnnounceAll(q, ids) == q + ids
    decreases |ids|
  {
    if ids != [] {
      AnnounceAllAppends(q + [ids[0]], ids[1..]);
      assert q + [ids[0]] + ids[1..] == q + ids;
    }
  }

  /** `NullPointerException`, thrown when the codec list is consulted while
      null. */
  datatype Thrown = NullPointerException

  /** `getSupportedCodecs`: the software factory's list exactly when forcing
      is on and the forced list is empty, otherwise the wrapped factory's
      list. The two lists come from factories outside this model. */
  function GetSupportedCodecs<T>(f: Factory, software: seq<T>, wrapped: seq<T>): (r: Result<seq<T>, Thrown>)
    ensures f.forceSWCodec && f.forceSWCodecs.None? ==> r == Err(NullPointerException)
    ensures !f.forceSWCodec ==> r == Ok(wrapped)
    ensures f.forceSWCodec && f.forceSWCodecs.Some? ==>
      r == Ok(if f.forceSWCodecs.value == [] then software else wrapped)
  {
    if f.forceSWCodec && f.forceSWCodecs.None? then Err(NullPointerException)
    else if f.forceSWCodec && f.forceSWCodecs.value == [] then Ok(software)
    else Ok(wrapped)
  }

  /** `setForceSWCodec`: replaces the flag outright. */
  function SetForceSWCodec(f: Factory, forceSWCodec: bool): (f': Factory)
    ensures f'.forceSWCodec == forceSWCodec && f'.forceSWCodecs == f.forceSWCodecs
  {
    f.(forceSWCodec := forceSWCodec)
  }

  /** `setForceSWCodecList`: replaces the list outright. */
  function SetForceSWCodecList(f: Factory, forceSWCodecs: Option<seq<string>>): (f': Factory)
    ensures f'.forceSWCodecs == forceSWCodecs && f'.forceSWCodec == f.forceSWCodec
  {
    f.(forceSWCodecs := forceSWCodecs)
  }

  /** A new factory advertises the wrapped factory's list, and turning the
      switch on with the list still empty selects the software list. */
  lemma NewFactoryAdvertisesWrapped<T>(software: seq<T>, wrapped: seq<T>)
    ensures GetSupportedCodecs(NewFactory, software, wrapped) == Ok(wrapped)
    ensures GetSupportedCodecs(SetForceSWCodec(NewFactory, true), software, wrapped) == Ok(software)
  {
  }

  /** Each setter forgets the value it replaces: setting twice equals setting
      the second value once, and the choice of list depends only on the
      latest values. */
  lemma SettersAreLastWriteWins<T>(f: Factory, b1: bool, b2: bool, l1: Option<seq<string>>,
                                   l2: Option<seq<string>>, software: seq<T>, wrapped: seq<T>)
    ensures SetForceSWCodec(SetForceSWCodec(f, b1), b2) == SetForceSWCodec(f, b2)
    ensures SetForceSWCodecList(SetForceSWCodecList(f, l1), l2) == SetForceSWCodecList(f, l2)
    ensures GetSupportedCodecs(SetForceSWCodecList(SetForceSWCodec(f, b2), l2), software, wrapped)
         == GetSupportedCodecs(Factory(b2, l2), software, wrapped)
  {
  }
}

=== FILE: media_frame.dfy ===
/** One slot of a ring buffer: a growable byte cell tagged with the media
    type, a timestamp and video or audio metadata (`MediaFrame` and the
    enumerations of NativeBuffer.h). */
module MediaFrame {
  import opened Common

  /** `VideoCodecType`; the numeric codes cross the native interface. */
  datatype VideoCodec = Unknown | H264 | H265 | VP8 | VP9 | AV1
  {
    function Id(): (id: int)
      ensures 0 <= id <= 5
      ensures id == 0 <==> this == Unknown
    {
      match this
      case Unknown => 0
      case H264 => 1
      case H265 => 2
      case VP8 => 3
      case VP9 => 4
      case AV1 => 5
    }
  }

  /** The codec whose code is `id`, if there is one. */
  function CodecOfId(id: int): (c: Option<VideoCodec>)
    ensures c.Some? <==> 0 <= id <= 5
    ensures c.Some? ==> c.value.Id() == id
  {
    match id
    case 0 => Some(Unknown)
    case 1 => Some(H264)
    case 2 => Some(H265)
    case 3 => Some(VP8)
    case 4 => Some(VP9)
    case 5 => Some(AV1)
    case _ => None
  }

  /** Codes and codecs are in one-to-one correspondence. */
  lemma CodecIdRoundTrip(c: VideoCodec)
    ensures CodecOfId(c.Id()) == Some(c)
  {
  }

  /** `MediaType`: the kind of frame a slot holds. */
  datatype MediaType = Video | Audio

  /** The `MediaMetadata` union, as a variant tagged by its kind. The codec is
      kept as the raw integer the producer passed, because the native push
      casts any `int` to `VideoCodecType` without checking it. */
  datatype Metadata =
    | VideoInfo(width: int, height: int, rotation: int, frameType: int, codecType: int)
    | AudioInfo(sampleRate: int, channels: int)

  /** The metadata of a slot that has never been written: the union is
      zero-filled and its codec is `VIDEO_CODEC_UNKNOWN`. */
  const InitialMetadata: Metadata := VideoInfo(0, 0, 0, 0, Unknown.Id())

  /** A slot. `buffer` is the whole allocated storage (so its length is the
      capacity); the first `size` bytes of it are the frame's data. */
  datatype Frame = Frame(
    mediaType: MediaType,
    frameTime: nat,
    buffer: seq<byte>,
    size: nat,
    capacity: nat,
    metadata: Metadata)
  {
    /** The slot invariant: the storage has `capacity` bytes, of which at
        most all are valid. */
    ghost predicate Valid()
    {
      |buffer| == capacity && size <= capacity
    }
  }

  /** What a consumer reads from a slot: its kind, timestamp, valid bytes and
      metadata. */
  datatype Payload = Payload(mediaType: MediaType, frameTime: nat, data: seq<byte>, metadata: Metadata)

  function View(f: Frame): (p: Payload)
    requires f.Valid()
    ensures |p.data| == f.size
  {
    Payload(f.mediaType, f.frameTime, f.buffer[..f.size], f.metadata)
  }

  /** The `MediaFrame(initial_buffer_capacity)` constructor; the failure of
      its allocation is modelled by the ring's constructor, its only caller. */
  function NewFrame(initialCapacity: nat): (f: Frame)
    ensures f.Valid()
    ensures f.size == 0 && f.capacity == initialCapacity
    ensures f.mediaType == Video && f.frameTime == 0
    ensures f.metadata.VideoInfo? && f.metadata.codecType == Unknown.Id()
    ensures View(f) == Payload(Video, 0, [], InitialMetadata)
  {
    Frame(Video, 0, Zeros(initialCapacity), 0, initialCapacity, InitialMetadata)
  }

  /** The outcome of `ensureBufferCapacity`: the returned flag and the slot
      afterwards. */
  datatype Grow = Grow(ok: bool, frame: Frame)

  /** `ensureBufferCapacity(required)`. `allocOk` says whether the allocation
      of a new block of `required` bytes would succeed; it is consulted only
      when the slot is too small. */
  function EnsureCapacity(f: Frame, required: nat, allocOk: bool): (g: Grow)
    requires f.Valid()
    ensures g.frame.Valid()
    ensures g.ok <==> required <= f.capacity || allocOk
    ensures required <= f.capacity ==> g.frame == f
    ensures !g.ok ==> g.frame == f
    ensures g.frame.capacity >= f.capacity
    ensures g.ok ==> g.frame.capacity >= required
    ensures g.ok && required > f.capacity ==>
      && g.frame.capacity == required
      && g.frame.size == 0
      && g.frame.mediaType == f.mediaType
      && g.frame.frameTime == f.frameTime
      && g.frame.metadata == f.metadata
  {
    if required <= f.capacity then Grow(true, f)
    else if allocOk then Grow(true, f.(buffer := Zeros(required), capacity := required, size := 0))
    else Grow(false, f)
  }

  /** After a successful grow to `n`, asking again for any `m <= n` never
      reallocates: the slot comes back unchanged. */
  lemma GrowthIsSticky(f: Frame, n: nat, allocOk: bool, m: nat, allocOk': bool)
    requires f.Valid()
    requires EnsureCapacity(f, n, allocOk).ok
    requires m <= n
    ensures var g := EnsureCapacity(f, n, allocOk).frame;
      EnsureCapacity(g, m, allocOk') == Grow(true, g)
  {
  }

  /** The write step of a push: copy `data` to the front of the storage and
      stamp the slot's size, media type, timestamp and metadata together. */
  function Store(f: Frame, data: seq<byte>, mediaType: MediaType, frameTime: nat, metadata: Metadata): (f': Frame)
    requires f.Valid()
    requires |data| <= f.capacity
    ensures f'.Valid()
    ensures f'.capacity == f.capacity
    ensures View(f') == Payload(mediaType, frameTime, data, metadata)
  {
    Frame(mediaType, frameTime, data + f.buffer[|data|..], |data|, f.capacity, metadata)
  }
}

=== FILE: native_buffer.dfy ===
/** The bounded, overwrite-oldest ring of media frames (`NativeBuffer`).
    Each locked section of the source is one transition here: a push or a
    pop takes a ring value and returns the ring after it. */
module NativeBuffer {
  import opened Common
  import opened MediaFrame

  /** The constructor's failures: `std::invalid_argument` for a non-positive
      argument, `std::bad_alloc` when a slot cannot be allocated. */
  datatype RingError = InvalidArgument | OutOfMemory

  /** The ring's state: `frames_`, `capacity_`,
      `current_max_frame_buffer_size_`, `write_index_`, `read_index_` and
      `count_`. */
  datatype Ring = Ring(
    slots: seq<Frame>,
    capacity: nat,
    maxFrameSize: nat,
    writeIndex: nat,
    readIndex: nat,
    count: nat)
  {
    /** The ring invariant: `capacity` slots, both indices in range, at most
        `capacity` unread frames, and the unread frames are exactly the
        `count` slots from `readIndex` up to `writeIndex` (cyclically). */
    ghost predicate Valid()
    {
      && capacity > 0
      && |slots| == capacity
      && writeIndex < capacity
      && readIndex < capacity
      && count <= capacity
      && writeIndex == Wrap(readIndex + count, capacity)
      && forall i :: 0 <= i < |slots| ==> slots[i].Valid()
    }

    /** The slot index of the `k`-th oldest unread frame, that is
        `(readIndex + k) % capacity`. */
    function Position(k: nat): (p: nat)
      requires Valid() && k <= capacity
      ensures p < capacity
    {
      Wrap(readIndex + k, capacity)
    }

    /** The abstraction of the ring: its unread frames, oldest first. */
    function Unread(): (u: seq<Payload>)
      requires Valid()
      ensures |u| == count
    {
      seq(count, k requires 0 <= k < count => View(slots[Position(k)]))
    }
  }

  /** The last `n` elements of `xs` (all of them when there are fewer):
      what a queue that drops its oldest element on overflow keeps. */
  function Keep<T>(xs: seq<T>, n: nat): (ys: seq<T>)
  {
    if |xs| <= n then xs else xs[|xs| - n..]
  }

  /** Keeping the last `n` after every append is the same as keeping the last
      `n` once at the end. */
  lemma {:induction false} KeepAppend<T>(xs: seq<T>, ys: seq<T>, n: nat)
    ensures Keep(Keep(xs, n) + ys, n) == Keep(xs + ys, n)
  {
    if |xs| > n {
      var k := xs[|xs| - n..];
      assert |k + ys| == n + |ys|;
      if |ys| == 0 {
        assert k + ys == k;
        assert xs + ys == xs;
      } else {
        assert (k + ys)[|ys|..] == (xs + ys)[|xs| + |ys| - n..];
      }
    }
  }

  /** `NativeBuffer(capacity, initial_max_buffer_size)`. `allocOk` says
      whether allocating the slots succeeds. */
  function New(capacity: int, initialSlotSize: int, allocOk: bool): (r: Result<Ring, RingError>)
    ensures capacity <= 0 || initialSlotSize <= 0 <==> r == Err(InvalidArgument)
    ensures r == Err(OutOfMemory) <==> capacity > 0 && initialSlotSize > 0 && !allocOk
    ensures r.Ok? ==>
      && r.value.Valid()
      && r.value.capacity == capacity
      && r.value.maxFrameSize == initialSlotSize
      && r.value.writeIndex == 0 && r.value.readIndex == 0 && r.value.count == 0
      && r.value.Unread() == []
      && forall i :: 0 <= i < capacity ==> r.value.slots[i] == NewFrame(initialSlotSize)
  {
    if capacity <= 0 || initialSlotSize <= 0 then Err(InvalidArgument)
    else if !allocOk then Err(OutOfMemory)
    else
      var slots := seq(capacity, _ => NewFrame(initialSlotSize));
      Ok(Ring(slots, capacity, initialSlotSize, 0, 0, 0))
  }

  /** The return code of a push and the ring after it. */
  datatype PushOutcome = PushOutcome(code: int, ring: Ring)

  /** A push that finds room: slot `writeIndex` now holds `f` and the ring has
      one more unread frame. */
  lemma AppendWhenRoom(r: Ring, f: Frame)
    requires r.Valid() && r.count < r.capacity && f.Valid()
    ensures var r' := r.(slots := r.slots[r.writeIndex := f],
                         writeIndex := (r.writeIndex + 1) % r.capacity,
                         count := r.count + 1);
      r'.Valid() && r'.Unread() == r.Unread() + [View(f)]
      && r'.Unread() == Keep(r.Unread() + [View(f)], r.capacity)
  {
    var r' := r.(slots := r.slots[r.writeIndex := f],
                 writeIndex := (r.writeIndex + 1) % r.capacity,
                 count := r.count + 1);
    ModIsWrap(r.writeIndex + 1, r.capacity);
    assert r'.Valid();
    forall k | 0 <= k < r.count
      ensures r'.Unread()[k] == r.Unread()[k]
    {
      assert r.Position(k) != r.writeIndex;
    }
    assert r'.Unread() == r.Unread() + [View(f)];
  }

  /** A push into a full ring: the oldest frame's slot (`readIndex`, which is
      also `writeIndex`) is overwritten and the read position moves past it. */
  lemma OverwriteWhenFull(r: Ring, f: Frame)
    requires r.Valid() && r.count == r.capacity && f.Valid()
    ensures var r' := r.(slots := r.slots[r.writeIndex := f],
                         writeIndex := (r.writeIndex + 1) % r.capacity,
                         readIndex := (r.readIndex + 1) % r.capacity);
      r'.Valid() && r'.Unread() == r.Unread()[1..] + [View(f)]
      && r'.Unread() == Keep(r.Unread() + [View(f)], r.capacity)
  {
    var cap := r.capacity;
    var next := (r.readIndex + 1) % cap;
    ModIsWrap(r.readIndex + 1, cap);
    var r' := r.(slots := r.slots[r.writeIndex := f], writeIndex := next, readIndex := next);
    assert r'.Valid();
    forall k | 0 <= k < cap - 1
      ensures r'.Unread()[k] == r.Unread()[k + 1]
    {
      assert r'.Position(k) == r.Position(k + 1) != r.writeIndex;
    }
    assert r'.Position(cap - 1) == r.writeIndex;
    assert r'.Unread() == r.Unread()[1..] + [View(f)];
  }

  /** The locked tail of a push once the slot can hold the frame: evict the
      oldest unread frame if the ring is full, write `f` into slot
      `writeIndex` and advance `writeIndex`. The unread frames afterwards are
      the last `capacity` of the old ones followed by `f`. */
  function Place(r: Ring, f: Frame, maxSize: nat): (r': Ring)
    requires r.Valid() && f.Valid()
    ensures r'.Valid() && r'.capacity == r.capacity && r'.maxFrameSize == maxSize
    ensures r'.Unread() == Keep(r.Unread() + [View(f)], r.capacity)
    ensures r'.count == (if r.count < r.capacity then r.count + 1 else r.capacity)
    ensures r'.writeIndex == (r.writeIndex + 1) % r.capacity
    ensures r'.readIndex == (if r.count == r.capacity then (r.readIndex + 1) % r.capacity else r.readIndex)
    ensures r'.slots == r.slots[r.writeIndex := f]
  {
    var r0 := r.(maxFrameSize := maxSize);
    assert r0.Unread() == r.Unread();
    if r.count >= r.capacity then
      OverwriteWhenFull(r0, f);
      r0.(slots := r0.slots[r0.writeIndex := f],
          writeIndex := (r0.writeIndex + 1) % r0.capacity,
          readIndex := (r0.readIndex + 1) % r0.capacity)
    else
      AppendWhenRoom(r0, f);
      r0.(slots := r0.slots[r0.writeIndex := f],
          writeIndex := (r0.writeIndex + 1) % r0.capacity,
          count := r0.count + 1)
  }

  /** `pushInternal`: grow the slot at `writeIndex` if the frame does not fit
      (failing with -1 and no change at all if that allocation fails), then
      `Place` the frame. The unread frames afterwards are the last `capacity`
      of the old unread frames followed by the new one. */
  function PushInternal(r: Ring, data: seq<byte>, mediaType: MediaType, metadata: Metadata,
                        frameTime: nat, allocOk: bool): (o: PushOutcome)
    requires r.Valid()
    ensures o.ring.Valid()
    ensures o.ring.capacity == r.capacity
    ensures o.code == 0 || o.code == -1
    ensures o.code == -1 <==> |data| > r.slots[r.writeIndex].capacity && !allocOk
    ensures o.code == -1 ==> o.ring == r
    ensures |data| <= r.slots[r.writeIndex].capacity ==>
      o.ring.slots[r.writeIndex].capacity == r.slots[r.writeIndex].capacity
    ensures o.code == 0 ==>
      && o.ring.Unread() == Keep(r.Unread() + [Payload(mediaType, frameTime, data, metadata)], r.capacity)
      && o.ring.count == (if r.count < r.capacity then r.count + 1 else r.capacity)
      && o.ring.writeIndex == (r.writeIndex + 1) % r.capacity
      && o.ring.readIndex == (if r.count == r.capacity then (r.readIndex + 1) % r.capacity else r.readIndex)
      && View(o.ring.slots[r.writeIndex]) == Payload(mediaType, frameTime, data, metadata)
      && o.ring.slots[r.writeIndex].capacity >= |data|
      && (forall i :: 0 <= i < r.capacity && i != r.writeIndex ==> o.ring.slots[i] == r.slots[i])
    ensures o.code == 0 ==>
      o.ring.maxFrameSize ==
        (if |data| > r.slots[r.writeIndex].capacity && |data| > r.maxFrameSize then |data| else r.maxFrameSize)
  {
    var slot := r.slots[r.writeIndex];
    var grown := EnsureCapacity(slot, |data|, allocOk);
    if !grown.ok then PushOutcome(-1, r)
    else
      var maxSize := if |data| > slot.capacity && |data| > r.maxFrameSize then |data| else r.maxFrameSize;
      var written := Store(grown.frame, data, mediaType, frameTime, metadata);
      PushOutcome(0, Place(r, written, maxSize))
  }

  /** `r'` is `r` after one write: the write index has advanced by one slot,
      the slot written did not shrink, and every other slot is as it was. */
  ghost predicate WritesOnlyNextSlot(r: Ring, r': Ring)
    requires r.Valid() && r'.Valid() && r'.capacity == r.capacity
  {
    && r'.writeIndex == (r.writeIndex + 1) % r.capacity
    && r'.slots[r.writeIndex].capacity >= r.slots[r.writeIndex].capacity
    && (forall i :: 0 <= i < r.capacity && i != r.writeIndex ==> r'.slots[i] == r.slots[i])
  }

  /** `pushVideoFrame`: a push tagged as video with the video metadata. */
  function PushVideoFrame(r: Ring, data: seq<byte>, width: int, height: int, frameTime: nat,
                          rotation: int, frameType: int, codecType: int, allocOk: bool): (o: PushOutcome)
    requires r.Valid()
    ensures o.ring.Valid() && o.ring.capacity == r.capacity
    ensures o.code == 0 || o.code == -1
    ensures o.code == -1 <==> |data| > r.slots[r.writeIndex].capacity && !allocOk
    ensures o.code == -1 ==> o.ring == r
    ensures o.code == 0 ==>
      && o.ring.Unread() ==
           Keep(r.Unread() + [Payload(Video, frameTime, data, VideoInfo(width, height, rotation, frameType, codecType))],
                r.capacity)
      && o.ring.count > 0
      && o.ring.Unread()[o.ring.count - 1] ==
           Payload(Video, frameTime, data, VideoInfo(width, height, rotation, frameType, codecType))
    ensures o.code == 0 ==> WritesOnlyNextSlot(r, o.ring)
  {
    PushInternal(r, data, Video, VideoInfo(width, height, rotation, frameType, codecType), frameTime, allocOk)
  }

  /** `pushAudioFrame`: a push tagged as audio with the audio metadata. */
  function PushAudioFrame(r: Ring, data: seq<byte>, sampleRate: int, channels: int,
                          frameTime: nat, allocOk: bool): (o: PushOutcome)
    requires r.Valid()
    ensures o.ring.Valid() && o.ring.capacity == r.capacity
    ensures o.code == 0 || o.code == -1
    ensures o.code == -1 <==> |data| > r.slots[r.writeIndex].capacity && !allocOk
    ensures o.code == -1 ==> o.ring == r
    ensures o.code == 0 ==>
      && o.ring.Unread() == Keep(r.Unread() + [Payload(Audio, frameTime, data, AudioInfo(sampleRate, channels))],
                                 r.capacity)
      && o.ring.count > 0
      && o.ring.Unread()[o.ring.count - 1] == Payload(Audio, frameTime, data, AudioInfo(sampleRate, channels))
    ensures o.code == 0 ==> WritesOnlyNextSlot(r, o.ring)
  {
    PushInternal(r, data, Audio, AudioInfo(sampleRate, channels), frameTime, allocOk)
  }

  /** The popped slot (its index stands for the returned `MediaFrame*`), the
      frame it holds, and the ring afterwards. */
  datatype PopOutcome = PopOutcome(slot: nat, frame: Frame, ring: Ring)

  /** `popFrame`, once its wait for `count_ > 0` is over: hand out the slot at
      `readIndex` and advance past it. Slot contents are not touched. */
  function PopFrame(r: Ring): (o: PopOutcome)
    requires r.Valid() && r.count > 0
    ensures o.ring.Valid()
    ensures o.slot == r.readIndex && o.frame == r.slots[r.readIndex]
    ensures View(o.frame) == r.Unread()[0]
    ensures o.ring.Unread() == r.Unread()[1..]
    ensures o.ring.slots == r.slots && o.ring.capacity == r.capacity
    ensures o.ring.readIndex == (r.readIndex + 1) % r.capacity && o.ring.count == r.count - 1
    ensures o.ring.writeIndex == r.writeIndex
  {
    var r' := r.(readIndex := (r.readIndex + 1) % r.capacity, count := r.count - 1);
    PopAdvances(r);
    PopOutcome(r.readIndex, r.slots[r.readIndex], r')
  }

  /** Advancing `readIndex` past the oldest unread frame keeps the invariant
      and drops exactly that frame from the unread ones. */
  lemma PopAdvances(r: Ring)
    requires r.Valid() && r.count > 0
    ensures var r' := r.(readIndex := (r.readIndex + 1) % r.capacity, count := r.count - 1);
      r'.Valid() && r'.Unread() == r.Unread()[1..]
  {
    var r' := r.(readIndex := (r.readIndex + 1) % r.capacity, count := r.count - 1);
    ModIsWrap(r.readIndex + 1, r.capacity);
    assert r'.Valid();
    forall k | 0 <= k < r.count - 1
      ensures r'.Unread()[k] == r.Unread()[k + 1]
    {
      assert r'.Position(k) == r.Position(k + 1);
    }
  }

  /** Pushing the frames `ps` in order, every allocation succeeding. */
  function PushAll(r: Ring, ps: seq<Payload>): (r': Ring)
    requires r.Valid()
    ensures r'.Valid() && r'.capacity == r.capacity
    ensures r'.Unread() == Keep(r.Unread() + ps, r.capacity)
    decreases |ps|
  {
    if ps == [] then
      assert r.Unread() + ps == r.Unread();
      r
    else
      var p := ps[0];
      var o := PushInternal(r, p.data, p.mediaType, p.metadata, p.frameTime, true);
      var r' := PushAll(o.ring, ps[1..]);
      KeepAppend(r.Unread() + [p], ps[1..], r.capacity);
      assert r.Unread() + [p] + ps[1..] == r.Unread() + ps;
      r'
  }

  /** The frames handed out by `n` successive pops, and the ring after them. */
  datatype Drained = Drained(popped: seq<Payload>, ring: Ring)

  /** Popping `n` times from a ring holding at least `n` unread frames. */
  function PopAll(r: Ring, n: nat): (d: Drained)
    requires r.Valid() && n <= r.count
    ensures d.ring.Valid() && d.ring.capacity == r.capacity
    ensures d.popped == r.Unread()[..n]
    ensures d.ring.Unread() == r.Unread()[n..]
    decreases n
  {
    if n == 0 then Drained([], r)
    else
      var u := r.Unread();
      var o := PopFrame(r);
      var d := PopAll(o.ring, n - 1);
      DropHead(u, n);
      Drained([View(o.frame)] + d.popped, d.ring)
  }

  /** Slicing the tail of `u` is slicing `u` one position further on. */
  lemma DropHead<T>(u: seq<T>, n: nat)
    requires 0 < n <= |u|
    ensures u[1..][..n - 1] == u[1..n] && u[1..][n - 1..] == u[n..]
    ensures [u[0]] + u[1..n] == u[..n]
  {
    assert [u[0]] + u[1..n] == u[..n];
  }

  /** Overwrite-oldest: pushing `capacity + k` frames into an empty ring with
      no pops in between, then popping `capacity` times, yields the last
      `capacity` frames in push order and leaves the ring empty. */
  lemma OverwriteKeepsNewest(r: Ring, ps: seq<Payload>, k: nat)
    requires r.Valid() && r.count == 0
    requires |ps| == r.capacity + k
    ensures PushAll(r, ps).count == r.capacity
    ensures var d := PopAll(PushAll(r, ps), r.capacity);
      d.popped == ps[k..] && d.ring.count == 0
  {
    assert r.Unread() + ps == ps;
    var q := PushAll(r, ps);
    assert q.Unread() == ps[k..];
    var d := PopAll(q, r.capacity);
    assert d.popped == q.Unread()[..r.capacity];
  }

  /** The capacity-3 scenario: frames A, B, C, D of 32 bytes pushed into a
      fresh ring of 3 slots of 64 bytes; the pops return B, C, D and the ring
      is then empty, so a further pop would wait. */
  lemma EvictsOldestOfFour()
    ensures var r := New(3, 64, true).value;
      var ps := [Payload(Video, 1, Zeros(32), InitialMetadata),
                 Payload(Video, 2, Zeros(32), InitialMetadata),
                 Payload(Video, 3, Zeros(32), InitialMetadata),
                 Payload(Video, 4, Zeros(32), InitialMetadata)];
      var d := PopAll(PushAll(r, ps), 3);
      d.popped == ps[1..] && d.ring.count == 0
  {
    var r := New(3, 64, true).value;
    var ps := [Payload(Video, 1, Zeros(32), InitialMetadata),
               Payload(Video, 2, Zeros(32), InitialMetadata),
               Payload(Video, 3, Zeros(32), InitialMetadata),
               Payload(Video, 4, Zeros(32), InitialMetadata)];
    OverwriteKeepsNewest(r, ps, 1);
  }

  /** A frame larger than its slot: with the allocation succeeding the push
      succeeds, the slot grows to hold it, and the consumer reads back exactly
      the bytes written. */
  lemma OversizedFrameRoundTrip(r: Ring, data: seq<byte>, mediaType: MediaType, metadata: Metadata, frameTime: nat)
    requires r.Valid() && r.count == 0
    requires |data| > r.slots[r.writeIndex].capacity
    ensures var o := PushInternal(r, data, mediaType, metadata, frameTime, true);
      && o.code == 0
      && o.ring.slots[r.writeIndex].capacity >= |data|
      && PopFrame(o.ring).frame.buffer[..|data|] == data
  {
    var o := PushInternal(r, data, mediaType, metadata, frameTime, true);
    assert r.Unread() + [Payload(mediaType, frameTime, data, metadata)] == [Payload(mediaType, frameTime, data, metadata)];
    assert View(PopFrame(o.ring).frame).data == data;
  }
}

=== FILE: native_buffer_api.dfy ===
/** The process-wide registry in front of the rings (native_buffer_api.cpp):
    a map from key to ring, a map from key to Dart port, the one-time "Dart
    API initialised" flag, and the log of messages posted to Dart ports.
    Each exported entry point is one transition over this state: the
    registry lookup, the ring operation and the notification that the source
    runs under separate locks are taken together as a single step. */
module NativeBufferApi {
  import opened Common
  import opened MediaFrame
  import NativeBuffer

  /** One `Dart_PostCObject_DL(port, message)` call: the message is the
      64-bit integer 1, meaning "a frame is ready". */
  datatype Post = Post(port: int, message: int)

  /** `g_nativeBuffers`, `g_dartPorts`, `g_dartApiInitialized` and the
      messages posted so far. */
  datatype Api = Api(
    buffers: map<string, NativeBuffer.Ring>,
    ports: map<string, int>,
    armed: bool,
    posted: seq<Post>)
  {
    /** Every registered ring satisfies the ring invariant and every
        registered port is positive. */
    ghost predicate Valid()
    {
      && (forall k :: k in buffers ==> buffers[k].Valid())
      && (forall k :: k in ports ==> ports[k] > 0)
    }
  }

  /** The state at process start: nothing registered, not armed. */
  const Initial: Api := Api(map[], map[], false, [])

  /** The value an entry point returns and the state after it. */
  datatype Step<R> = Step(result: R, api: Api)

  /** `initNativeBufferFFI`: reject a null key or a non-positive size (0);
      on a key already present succeed (1) and leave its ring as it is;
      otherwise construct a ring, returning 0 if construction throws.
      `allocOk` says whether the ring's allocations succeed. */
  function InitNativeBufferFFI(api: Api, key: Option<string>, capacity: int, maxBufferSize: int,
                               allocOk: bool): (s: Step<int>)
    requires api.Valid()
    ensures s.api.Valid()
    ensures s.result == 0 || s.result == 1
    ensures s.result == 0 ==> s.api == api
    ensures key.None? || capacity <= 0 || maxBufferSize <= 0 ==> s.result == 0
    ensures key.Some? && key.value in api.buffers && capacity > 0 && maxBufferSize > 0 ==> s == Step(1, api)
    ensures key.Some? && key.value !in api.buffers && capacity > 0 && maxBufferSize > 0 ==>
      (s.result == 1 <==> allocOk)
    ensures s.result == 1 ==>
      && key.Some?
      && key.value in s.api.buffers
      && s.api.buffers.Keys == api.buffers.Keys + {key.value}
      && (forall k :: k in api.buffers ==> s.api.buffers[k] == api.buffers[k])
      && s.api.ports == api.ports && s.api.armed == api.armed && s.api.posted == api.posted
    ensures s.result == 1 && key.value !in api.buffers ==>
      && s.api.buffers[key.value].capacity == capacity
      && s.api.buffers[key.value].maxFrameSize == maxBufferSize
      && (forall i :: 0 <= i < capacity ==> s.api.buffers[key.value].slots[i] == NewFrame(maxBufferSize))
      && s.api.buffers[key.value].Unread() == []
      && s.api.buffers[key.value].readIndex == 0 && s.api.buffers[key.value].writeIndex == 0
  {
    if key.None? || capacity <= 0 || maxBufferSize <= 0 then Step(0, api)
    else if key.value in api.buffers then Step(1, api)
    else
      match NativeBuffer.New(capacity, maxBufferSize, allocOk)
      case Err(_) => Step(0, api)
      case Ok(ring) => Step(1, api.(buffers := api.buffers[key.value := ring]))
  }

  /** Initialising a key twice is the same as initialising it once, whatever
      sizes the second call asks for: the first ring, with its original
      capacity, stays. */
  lemma InitIsIdempotent(api: Api, key: string, capacity: int, maxBufferSize: int, allocOk: bool,
                         capacity': int, maxBufferSize': int, allocOk': bool)
    requires api.Valid()
    requires InitNativeBufferFFI(api, Some(key), capacity, maxBufferSize, allocOk).result == 1
    requires capacity' > 0 && maxBufferSize' > 0
    ensures var s := InitNativeBufferFFI(api, Some(key), capacity, maxBufferSize, allocOk);
      && InitNativeBufferFFI(s.api, Some(key), capacity', maxBufferSize', allocOk') == Step(1, s.api)
      && s.api.buffers[key].capacity == (if key in api.buffers then api.buffers[key].capacity else capacity)
  {
  }

  /** `notifyDartFrameReady`: post 1 to the key's port, but only once the API
      is armed and a positive port is registered for the key. */
  function NotifyDartFrameReady(api: Api, key: string): (api': Api)
    ensures api'.buffers == api.buffers && api'.ports == api.ports && api'.armed == api.armed
    ensures api'.posted == api.posted + (if api.armed && key in api.ports && api.ports[key] > 0
                                          then [Post(api.ports[key], 1)] else [])
  {
    if !api.armed then api
    else
      var port := if key in api.ports then api.ports[key] else 0;
      if port > 0 then api.(posted := api.posted + [Post(port, 1)]) else api
  }

  /** `handlePushResult`: a ring result of 0 becomes 1 and triggers the
      notification; anything else becomes 0 and changes nothing. */
  function HandlePushResult(api: Api, pushResult: int, key: string): (s: Step<int>)
    ensures s.result == (if pushResult == 0 then 1 else 0)
    ensures s.result == 0 ==> s.api == api
    ensures s.result == 1 ==> s.api == NotifyDartFrameReady(api, key)
  {
    if pushResult == 0 then Step(1, NotifyDartFrameReady(api, key)) else Step(0, api)
  }

  /** The guards shared by both push entry points: a key, data, a non-zero
      size, and a registered ring. */
  predicate PushAdmissible(api: Api, key: Option<string>, data: Option<seq<byte>>)
  {
    key.Some? && data.Some? && |data.value| != 0 && key.value in api.buffers
  }

  /** `pushVideoNativeBufferFFI`. The bytes are `data`, and `dataSize` is its
      length. Returns 1 exactly when the ring accepted the frame, and only
      then notifies. */
  function PushVideoNativeBufferFFI(api: Api, key: Option<string>, data: Option<seq<byte>>,
                                    width: int, height: int, frameTime: nat, rotation: int,
                                    frameType: int, codecType: int, allocOk: bool): (s: Step<int>)
    requires api.Valid()
    ensures s.api.Valid()
    ensures s.result == 0 || s.result == 1
    ensures s.result == 0 ==> s.api == api
    ensures !PushAdmissible(api, key, data) ==> s.result == 0
    ensures s.result == 1 <==>
      && PushAdmissible(api, key, data)
      && NativeBuffer.PushVideoFrame(api.buffers[key.value], data.value, width, height, frameTime,
                                     rotation, frameType, codecType, allocOk).code == 0
    ensures s.result == 1 ==>
      && s.api.buffers == api.buffers[key.value := NativeBuffer.PushVideoFrame(api.buffers[key.value],
           data.value, width, height, frameTime, rotation, frameType, codecType, allocOk).ring]
      && s.api.ports == api.ports && s.api.armed == api.armed
      && s.api == NotifyDartFrameReady(s.api.(posted := api.posted), key.value)
  {
    if !PushAdmissible(api, key, data) then Step(0, api)
    else
      var o := NativeBuffer.PushVideoFrame(api.buffers[key.value], data.value, width, height, frameTime,
                                           rotation, frameType, codecType, allocOk);
      if o.code != 0 then HandlePushResult(api, o.code, key.value)
      else HandlePushResult(api.(buffers := api.buffers[key.value := o.ring]), o.code, key.value)
  }

  /** `pushAudioNativeBufferFFI`, with the same guards and result rule as the
      video push. */
  function PushAudioNativeBufferFFI(api: Api, key: Option<string>, data: Option<seq<byte>>,
                                    sampleRate: int, channels: int, frameTime: nat,
                                    allocOk: bool): (s: Step<int>)
    requires api.Valid()
    ensures s.api.Valid()
    ensures s.result == 0 || s.result == 1
    ensures s.result == 0 ==> s.api == api
    ensures !PushAdmissible(api, key, data) ==> s.result == 0
    ensures s.result == 1 <==>
      && PushAdmissible(api, key, data)
      && NativeBuffer.PushAudioFrame(api.buffers[key.value], data.value, sampleRate, channels,
                                     frameTime, allocOk).code == 0
    ensures s.result == 1 ==>
      && s.api.buffers == api.buffers[key.value := NativeBuffer.PushAudioFrame(api.buffers[key.value],
           data.value, sampleRate, channels, frameTime, allocOk).ring]
      && s.api.ports == api.ports && s.api.armed == api.armed
      && s.api == NotifyDartFrameReady(s.api.(posted := api.posted), key.value)
  {
    if !PushAdmissible(api, key, data) then Step(0, api)
    else
      var o := NativeBuffer.PushAudioFrame(api.buffers[key.value], data.value, sampleRate, channels,
                                           frameTime, allocOk);
      if o.code != 0 then HandlePushResult(api, o.code, key.value)
      else HandlePushResult(api.(buffers := api.buffers[key.value := o.ring]), o.code, key.value)
  }

  /** `after` is `before` with `p` delivered to `key`: the key's ring keeps
      its last `capacity` unread frames followed by `p`, no other ring, key,
      port or flag changes, and the "frame ready" message is posted to the
      key's port exactly when the API is armed and the key has one. */
  ghost predicate Delivered(before: Api, after: Api, key: string, p: Payload)
  {
    && before.Valid() && after.Valid()
    && key in before.buffers && key in after.buffers
    && after.buffers[key].capacity == before.buffers[key].capacity
    && after.buffers[key].Unread() ==
         NativeBuffer.Keep(before.buffers[key].Unread() + [p], before.buffers[key].capacity)
    && NativeBuffer.WritesOnlyNextSlot(before.buffers[key], after.buffers[key])
    && after.buffers == before.buffers[key := after.buffers[key]]
    && after.ports == before.ports && after.armed == before.armed
    && after.posted == before.posted + (if before.armed && key in before.ports
                                        then [Post(before.ports[key], 1)] else [])
  }

  /** A video push succeeds exactly when it is admissible and the frame fits
      its slot or the slot can grow; then the key's unread frames become the
      last `capacity` of the old ones followed by the new frame, and no other
      ring, no port and no key set changes. */
  lemma VideoPushKeepsNewest(api: Api, key: Option<string>, data: Option<seq<byte>>,
                             width: int, height: int, frameTime: nat, rotation: int,
                             frameType: int, codecType: int, allocOk: bool)
    requires api.Valid()
    ensures var s := PushVideoNativeBufferFFI(api, key, data, width, height, frameTime, rotation,
                                              frameType, codecType, allocOk);
      && (s.result == 1 <==>
            PushAdmissible(api, key, data)
            && (|data.value| <= api.buffers[key.value].slots[api.buffers[key.value].writeIndex].capacity || allocOk))
      && (s.result == 1 ==>
            var r := api.buffers[key.value];
            && key.value in s.api.buffers
            && s.api.buffers[key.value].capacity == r.capacity
            && NativeBuffer.WritesOnlyNextSlot(r, s.api.buffers[key.value])
            && s.api.buffers[key.value].Unread() ==
                 NativeBuffer.Keep(r.Unread() + [Payload(Video, frameTime, data.value,
                                            VideoInfo(width, height, rotation, frameType, codecType))], r.capacity)
            && s.api.buffers.Keys == api.buffers.Keys
            && (forall k :: k in api.buffers && k != key.value ==> s.api.buffers[k] == api.buffers[k])
            && s.api.ports == api.ports && s.api.armed == api.armed)
  {
    if PushAdmissible(api, key, data) {
      var r := api.buffers[key.value];
      var o := NativeBuffer.PushVideoFrame(r, data.value, width, height, frameTime, rotation, frameType,
                                           codecType, allocOk);
      assert o.code == 0 <==> |data.value| <= r.slots[r.writeIndex].capacity || allocOk;
    }
  }

  /** The same for an audio push. */
  lemma AudioPushKeepsNewest(api: Api, key: Option<string>, data: Option<seq<byte>>,
                             sampleRate: int, channels: int, frameTime: nat, allocOk: bool)
    requires api.Valid()
    ensures var s := PushAudioNativeBufferFFI(api, key, data, sampleRate, channels, frameTime, allocOk);
      && (s.result == 1 <==>
            PushAdmissible(api, key, data)
            && (|data.value| <= api.buffers[key.value].slots[api.buffers[key.value].writeIndex].capacity || allocOk))
      && (s.result == 1 ==>
            var r := api.buffers[key.value];
            && key.value in s.api.buffers
            && s.api.buffers[key.value].capacity == r.capacity
            && NativeBuffer.WritesOnlyNextSlot(r, s.api.buffers[key.value])
            && s.api.buffers[key.value].Unread() ==
                 NativeBuffer.Keep(r.Unread() + [Payload(Audio, frameTime, data.value, AudioInfo(sampleRate, channels))], r.capacity)
            && s.api.buffers.Keys == api.buffers.Keys
            && (forall k :: k in api.buffers && k != key.value ==> s.api.buffers[k] == api.buffers[k])
            && s.api.ports == api.ports && s.api.armed == api.armed)
  {
    if PushAdmissible(api, key, data) {
      var r := api.buffers[key.value];
      var o := NativeBuffer.PushAudioFrame(r, data.value, sampleRate, channels, frameTime, allocOk);
      assert o.code == 0 <==> |data.value| <= r.slots[r.writeIndex].capacity || allocOk;
    }
  }

  /** A push posts at most one message, posts it exactly when it succeeds on
      an armed API with a port for the key, and posts it to that port. */
  lemma PushNotifiesOnlyOnSuccess(api: Api, key: Option<string>, data: Option<seq<byte>>,
                                  width: int, height: int, frameTime: nat, rotation: int,
                                  frameType: int, codecType: int, allocOk: bool)
    requires api.Valid()
    ensures var s := PushVideoNativeBufferFFI(api, key, data, width, height, frameTime, rotation,
                                              frameType, codecType, allocOk);
      && (s.api.posted == api.posted || s.api.posted == api.posted + [Post(api.ports[key.value], 1)])
      && (|s.api.posted| == |api.posted| + 1 <==>
            s.result == 1 && api.armed && key.value in api.ports)
  {
  }

  /** What `popNativeBufferFFI` hands back: a null pointer (null or unknown
      key), nothing yet (the ring is empty, so the call is still waiting), or
      the popped slot. */
  datatype PopReply = NullFrame | Waiting | Popped(slot: nat, frame: Frame)

  /** `popNativeBufferFFI`. The source blocks on an empty ring; here that
      call has not completed yet (`Waiting`) and the state is unchanged. */
  function PopNativeBufferFFI(api: Api, key: Option<string>): (s: Step<PopReply>)
    requires api.Valid()
    ensures s.api.Valid()
    ensures key.None? || key.value !in api.buffers ==> s == Step(NullFrame, api)
    ensures s.result.Waiting? <==> key.Some? && key.value in api.buffers && api.buffers[key.value].count == 0
    ensures !s.result.Popped? ==> s.api == api
    ensures s.result.Popped? ==>
      && key.Some? && key.value in api.buffers
      && var r := api.buffers[key.value];
      && r.count > 0
      && s.result.frame.Valid()
      && View(s.result.frame) == r.Unread()[0]
      && key.value in s.api.buffers
      && s.api == api.(buffers := api.buffers[key.value := s.api.buffers[key.value]])
      && s.api.buffers[key.value].Unread() == r.Unread()[1..]
      && s.result.slot == r.readIndex && s.result.frame == r.slots[r.readIndex]
      && s.api.buffers[key.value].capacity == r.capacity
      && s.api.buffers[key.value].slots == r.slots
  {
    if key.None? || key.value !in api.buffers then Step(NullFrame, api)
    else
      var r := api.buffers[key.value];
      if r.count == 0 then Step(Waiting, api)
      else
        var o := NativeBuffer.PopFrame(r);
        Step(Popped(o.slot, o.frame), api.(buffers := api.buffers[key.value := o.ring]))
  }

  /** `freeNativeBufferFFI`: drop the key's ring and its port; a null key
      does nothing. */
  function FreeNativeBufferFFI(api: Api, key: Option<string>): (api': Api)
    requires api.Valid()
    ensures api'.Valid()
    ensures key.None? ==> api' == api
    ensures key.Some? ==>
      && api'.buffers.Keys == api.buffers.Keys - {key.value}
      && api'.ports.Keys == api.ports.Keys - {key.value}
      && (forall k :: k in api'.buffers ==> api'.buffers[k] == api.buffers[k])
      && (forall k :: k in api'.ports ==> api'.ports[k] == api.ports[k])
    ensures api'.armed == api.armed && api'.posted == api.posted
  {
    if key.None? then api
    else api.(buffers := api.buffers - {key.value}, ports := api.ports - {key.value})
  }

  /** Freeing a key that has neither a ring nor a port changes nothing. */
  lemma FreeUnknownIsNoOp(api: Api, key: string)
    requires api.Valid()
    requires key !in api.buffers && key !in api.ports
    ensures FreeNativeBufferFFI(api, Some(key)) == api
  {
    assert api.buffers - {key} == api.buffers;
    assert api.ports - {key} == api.ports;
  }

  /** After `free`, the key behaves as never initialised: pushes and pops on
      it fail at once and a new `init` builds a fresh ring. */
  lemma FreedKeyIsUnknown(api: Api, key: string, data: Option<seq<byte>>, width: int, height: int,
                          frameTime: nat, rotation: int, frameType: int, codecType: int, allocOk: bool,
                          capacity: int, maxBufferSize: int)
    requires api.Valid()
    ensures var a := FreeNativeBufferFFI(api, Some(key));
      && key !in a.ports
      && PushVideoNativeBufferFFI(a, Some(key), data, width, height, frameTime, rotation, frameType,
                                  codecType, allocOk) == Step(0, a)
      && PopNativeBufferFFI(a, Some(key)) == Step(NullFrame, a)
      && (capacity > 0 && maxBufferSize > 0 ==>
            var i := InitNativeBufferFFI(a, Some(key), capacity, maxBufferSize, true);
            && i.result == 1
            && i.api.buffers[key].capacity == capacity
            && i.api.buffers[key].Unread() == [])
  {
  }

  /** `initializeDartApiDL`: once armed, succeed without doing anything;
      otherwise arm only when the handle is non-null and `Dart_InitializeApiDL`
      succeeds (`dartInitOk`). */
  function InitializeDartApiDL(api: Api, handleNonNull: bool, dartInitOk: bool): (s: Step<bool>)
    ensures s.api == api.(armed := s.api.armed)
    ensures api.armed ==> s == Step(true, api)
    ensures !api.armed ==> (s.result <==> handleNonNull && dartInitOk)
    ensures s.api.armed == s.result
  {
    if api.armed then Step(true, api)
    else if !handleNonNull || !dartInitOk then Step(false, api)
    else Step(true, api.(armed := true))
  }

  /** Arming is permanent: once a call has succeeded, every later call
      succeeds whatever it is given, and leaves the state as it is. */
  lemma ArmedStaysArmed(api: Api, handleNonNull: bool, dartInitOk: bool,
                        handleNonNull': bool, dartInitOk': bool)
    requires InitializeDartApiDL(api, handleNonNull, dartInitOk).result
    ensures var a := InitializeDartApiDL(api, handleNonNull, dartInitOk).api;
      InitializeDartApiDL(a, handleNonNull', dartInitOk') == Step(true, a)
  {
  }

  /** `registerDartPort`: reject a null name or a non-positive port;
      otherwise record the port for the name, replacing any earlier one. */
  function RegisterDartPort(api: Api, name: Option<string>, port: int): (s: Step<bool>)
    requires api.Valid()
    ensures s.api.Valid()
    ensures s.result <==> name.Some? && port > 0
    ensures !s.result ==> s.api == api
    ensures s.result ==> s.api == api.(ports := api.ports[name.value := port])
  {
    if name.None? || port <= 0 then Step(false, api)
    else Step(true, api.(ports := api.ports[name.value := port]))
  }

  /** Registering twice under one name keeps only the second port. */
  lemma LastRegistrationWins(api: Api, name: string, port1: int, port2: int)
    requires api.Valid() && port2 > 0
    ensures var a := RegisterDartPort(api, Some(name), port1).api;
      RegisterDartPort(a, Some(name), port2) == RegisterDartPort(api, Some(name), port2)
  {
    if port1 > 0 {
      assert api.ports[name := port1][name := port2] == api.ports[name := port2];
    }
  }

  /** A consumer's round trip through the registry: after init, port
      registration and arming, a video push returns 1, posts exactly one
      message to the port, and the next pop hands back the pushed frame. */
  lemma PushThenPopDeliversFrame(api: Api, key: string, port: int, data: seq<byte>,
                                 width: int, height: int, frameTime: nat, rotation: int,
                                 frameType: int, codecType: int)
    requires api.Valid() && api.armed && key !in api.buffers
    requires port > 0 && 0 < |data| <= 64
    ensures
      var a1 := InitNativeBufferFFI(api, Some(key), 4, 64, true).api;
      var a2 := RegisterDartPort(a1, Some(key), port).api;
      var s := PushVideoNativeBufferFFI(a2, Some(key), Some(data), width, height, frameTime, rotation,
                                        frameType, codecType, true);
      var p := PopNativeBufferFFI(s.api, Some(key));
      && s.result == 1
      && s.api.posted == api.posted + [Post(port, 1)]
      && p.result.Popped?
      && View(p.result.frame) == Payload(Video, frameTime, data, VideoInfo(width, height, rotation, frameType, codecType))
  {
    var a1 := InitNativeBufferFFI(api, Some(key), 4, 64, true).api;
    var a2 := RegisterDartPort(a1, Some(key), port).api;
    var r := a2.buffers[key];
    assert r.Unread() == [];
    var o := NativeBuffer.PushVideoFrame(r, data, width, height, frameTime, rotation, frameType, codecType, true);
    assert o.code == 0;
    assert [] + [Payload(Video, frameTime, data, VideoInfo(width, height, rotation, frameType, codecType))]
        == [Payload(Video, frameTime, data, VideoInfo(width, height, rotation, frameType, codecType))];
  }
}

=== FILE: video_decoder_bypass.dfy ===
/** The Android decoder that, instead of decoding, copies each encoded frame
    into the native ring for its track (VideoDecoderBypass.java). The native
    calls go through the registry model; the JNI glue only marshals the key
    and the direct buffer's bytes, so it is folded into the calls below. */
module VideoDecoderBypass {
  import opened Common
  import opened MediaFrame
  import NativeBuffer
  import NativeBufferApi

  /** `Character.toLowerCase` on ASCII letters; every other character is
      left as it is. */
  function LowerChar(c: char): char
  {
    if 'A' <= c <= 'Z' then (c as int + 32) as char else c
  }

  function ToLower(s: string): (t: string)
    ensures |t| == |s|
    ensures forall i :: 0 <= i < |s| ==> t[i] == LowerChar(s[i])
  {
    seq(|s|, i requires 0 <= i < |s| => LowerChar(s[i]))
  }

  /** The substrings looked for, in the order they are tried; the one at
      index `j` selects codec code `j + 1` (H264 through AV1). */
  const CodecTokens: seq<string> := ["h264", "h265", "vp8", "vp9", "av1"]

  /** `codecStringToInt`: a null name is 0; otherwise the first token, in
      `CodecTokens` order, that occurs in the lower-cased name decides the
      code, and no match is 0 (`VIDEO_CODEC_UNKNOWN`). */
  function CodecStringToInt(codecName: Option<string>): (id: int)
    ensures 0 <= id <= 5 && CodecOfId(id).Some?
    ensures codecName.None? ==> id == 0
    ensures codecName.Some? ==>
      (id == 0 <==> forall j :: 0 <= j < |CodecTokens| ==> !OccursIn(CodecTokens[j], ToLower(codecName.value)))
    ensures codecName.Some? && id != 0 ==>
      && OccursIn(CodecTokens[id - 1], ToLower(codecName.value))
      && forall j :: 0 <= j < id - 1 ==> !OccursIn(CodecTokens[j], ToLower(codecName.value))
  {
    if codecName.None? then 0
    else
      var lower := ToLower(codecName.value);
      ContainsIffOccurs(lower, "h264");
      ContainsIffOccurs(lower, "h265");
      ContainsIffOccurs(lower, "vp8");
      ContainsIffOccurs(lower, "vp9");
      ContainsIffOccurs(lower, "av1");
      assert CodecTokens[0] == "h264" && CodecTokens[1] == "h265" && CodecTokens[2] == "vp8";
      assert CodecTokens[3] == "vp9" && CodecTokens[4] == "av1";
      if Contains(lower, "h264") then 1
      else if Contains(lower, "h265") then 2
      else if Contains(lower, "vp8") then 3
      else if Contains(lower, "vp9") then 4
      else if Contains(lower, "av1") then 5
      else 0
  }

  /** The first match wins: a name mentioning both "VP8" and "H264" maps to
      H264, because "h264" is tried first. */
  lemma FirstMatchWins()
    ensures CodecStringToInt(Some("VP8/H264")) == H264.Id()
  {
    assert ToLower("VP8/H264") == "vp8/h264";
    assert OccursAt("h264", "vp8/h264", 4);
  }

  /** `VideoCodecStatus`, of which the decoder returns only these two. */
  datatype Status = OK | ERROR

  /** A decoder's fields: its track id (the ring's key), its codec code, and
      whether it has initialised its ring. */
  datatype Decoder = Decoder(trackId: Option<string>, codecType: int, ringInitialized: bool)

  /** The constructor: the codec name is mapped once, the ring is not yet
      initialised. */
  function NewDecoder(trackId: Option<string>, codecName: Option<string>): (d: Decoder)
    ensures d.trackId == trackId && !d.ringInitialized
    ensures d.codecType == CodecStringToInt(codecName)
    ensures 0 <= d.codecType <= 5
    ensures codecName.None? ==> d.codecType == Unknown.Id()
  {
    Decoder(trackId, CodecStringToInt(codecName), false)
  }

  /** A `java.nio.ByteBuffer`: whether it is direct, and its bytes (so its
      capacity is their count). */
  datatype ByteBuffer = ByteBuffer(isDirect: bool, contents: seq<byte>)

  /** The fields of an `EncodedImage` that `decode` reads; `frameType` is the
      ordinal of the frame type. */
  datatype EncodedImage = EncodedImage(
    buffer: Option<ByteBuffer>,
    encodedWidth: int,
    encodedHeight: int,
    captureTimeMs: nat,
    rotation: int,
    frameType: int)

  /** Ring geometry chosen on the first decode. */
  const RingCapacity: int := 30
  const SlotHeadroom: int := 256

  /** The status of a call, the decoder afterwards and the native state
      afterwards. */
  datatype DecodeStep = DecodeStep(status: Status, decoder: Decoder, api: NativeBufferApi.Api)

  /** The frame as the ring stores it: the buffer's bytes, tagged video,
      stamped with the capture time and the decoder's codec code. */
  function EncodedPayload(d: Decoder, frame: EncodedImage): Payload
    requires frame.buffer.Some?
  {
    Payload(Video, frame.captureTimeMs, frame.buffer.value.contents,
            VideoInfo(frame.encodedWidth, frame.encodedHeight, frame.rotation, frame.frameType, d.codecType))
  }

  /** The set-up step of `decode`: nothing to do once the ring is
      initialised (reported as success), otherwise `initNativeBuffer` with
      30 slots of `capacity + 256` bytes. Success keeps every existing ring
      and port and adds at most the track's own ring. */
  function Prepare(d: Decoder, api: NativeBufferApi.Api, frame: EncodedImage, allocOk: bool): (s: NativeBufferApi.Step<int>)
    requires api.Valid() && frame.buffer.Some?
    ensures s.api.Valid()
    ensures d.ringInitialized ==> s == NativeBufferApi.Step(1, api)
    ensures !d.ringInitialized ==>
      s == NativeBufferApi.InitNativeBufferFFI(api, d.trackId, RingCapacity,
                                               |frame.buffer.value.contents| + SlotHeadroom, allocOk)
    ensures s.result == 0 || s.result == 1
    ensures s.result == 0 ==> s.api == api
    ensures s.result == 1 ==>
      || s.api == api
      || (&& d.trackId.Some? && d.trackId.value !in api.buffers && d.trackId.value in s.api.buffers
          && s.api == api.(buffers := api.buffers[d.trackId.value := s.api.buffers[d.trackId.value]]))
  {
    if d.ringInitialized then NativeBufferApi.Step(1, api)
    else NativeBufferApi.InitNativeBufferFFI(api, d.trackId, RingCapacity,
                                             |frame.buffer.value.contents| + SlotHeadroom, allocOk)
  }

  /** The push step of `decode`, once the ring is set up: OK exactly when
      the native push returned non-zero, in which case the track's ring keeps
      its last `capacity` unread frames followed by this one and nothing else
      changes; ERROR changes nothing. Either way the flag is now set. */
  function PushEncoded(d: Decoder, api: NativeBufferApi.Api, frame: EncodedImage, allocOk: bool): (s: DecodeStep)
    requires api.Valid() && frame.buffer.Some?
    ensures s.api.Valid()
    ensures s.decoder == d.(ringInitialized := true)
    ensures s.status == OK <==>
      NativeBufferApi.PushVideoNativeBufferFFI(api, d.trackId, Some(frame.buffer.value.contents),
        frame.encodedWidth, frame.encodedHeight, frame.captureTimeMs, frame.rotation, frame.frameType,
        d.codecType, allocOk).result != 0
    ensures s.status == ERROR ==> s.api == api
    ensures s.status == OK ==>
      d.trackId.Some? && NativeBufferApi.Delivered(api, s.api, d.trackId.value, EncodedPayload(d, frame))
  {
    var push := NativeBufferApi.PushVideoNativeBufferFFI(api, d.trackId, Some(frame.buffer.value.contents),
      frame.encodedWidth, frame.encodedHeight, frame.captureTimeMs, frame.rotation, frame.frameType,
      d.codecType, allocOk);
    NativeBufferApi.VideoPushKeepsNewest(api, d.trackId, Some(frame.buffer.value.contents), frame.encodedWidth,
      frame.encodedHeight, frame.captureTimeMs, frame.rotation, frame.frameType, d.codecType, allocOk);
    if push.result == 0 then DecodeStep(ERROR, d.(ringInitialized := true), push.api)
    else DecodeStep(OK, d.(ringInitialized := true), push.api)
  }

  /** Delivering to a ring that the set-up step either found or just added
      changes, relative to the state before the set-up, only that ring (now
      present) and the message log. */
  lemma SetUpThenDeliver(api: NativeBufferApi.Api, before: NativeBufferApi.Api, after: NativeBufferApi.Api,
                         key: string, p: Payload)
    requires NativeBufferApi.Delivered(before, after, key, p)
    requires before == api || (key !in api.buffers && before == api.(buffers := api.buffers[key := before.buffers[key]]))
    ensures after.buffers.Keys == api.buffers.Keys + {key}
    ensures forall k :: k in api.buffers && k != key ==> after.buffers[k] == api.buffers[k]
    ensures after.ports == api.ports && after.armed == api.armed
    ensures after.posted == api.posted + (if api.armed && key in api.ports then [NativeBufferApi.Post(api.ports[key], 1)] else [])
  {
  }

  /** `decode`: reject a null or non-direct buffer; on the first call
      initialise the ring (30 slots of `capacity + 256` bytes), and give up
      with ERROR if that fails; then push the whole buffer and report ERROR
      exactly when the push returned 0. `allocOk` is passed to the native
      allocations. */
  function Decode(d: Decoder, api: NativeBufferApi.Api, frame: EncodedImage, allocOk: bool): (s: DecodeStep)
    requires api.Valid()
    ensures s.api.Valid()
    ensures s.decoder.trackId == d.trackId && s.decoder.codecType == d.codecType
    ensures frame.buffer.None? || !frame.buffer.value.isDirect ==> s == DecodeStep(ERROR, d, api)
    ensures d.ringInitialized ==> s.decoder == d
    ensures frame.buffer.Some? && frame.buffer.value.isDirect && !d.ringInitialized ==>
      var init := NativeBufferApi.InitNativeBufferFFI(api, d.trackId, RingCapacity,
                                                      |frame.buffer.value.contents| + SlotHeadroom, allocOk);
      && s.decoder.ringInitialized == (init.result != 0)
      && (init.result == 0 ==> s == DecodeStep(ERROR, d, api))
    ensures s.status == OK ==> frame.buffer.Some? && frame.buffer.value.isDirect && s.decoder.ringInitialized
    ensures frame.buffer.Some? && frame.buffer.value.isDirect && s.decoder.ringInitialized ==>
      var before := Prepare(d, api, frame, allocOk).api;
      && (s.status == OK <==>
            NativeBufferApi.PushVideoNativeBufferFFI(before, d.trackId, Some(frame.buffer.value.contents),
              frame.encodedWidth, frame.encodedHeight, frame.captureTimeMs, frame.rotation, frame.frameType,
              d.codecType, allocOk).result != 0)
      && (s.status == ERROR ==> s.api == before)
      && (s.status == OK ==>
            && d.trackId.Some? && NativeBufferApi.Delivered(before, s.api, d.trackId.value, EncodedPayload(d, frame))
            && s.api.buffers.Keys == api.buffers.Keys + {d.trackId.value}
            && (forall k :: k in api.buffers && k != d.trackId.value ==> s.api.buffers[k] == api.buffers[k])
            && s.api.ports == api.ports
            && s.api.armed == api.armed
            && s.api.posted == api.posted + (if api.armed && d.trackId.value in api.ports
                                             then [NativeBufferApi.Post(api.ports[d.trackId.value], 1)] else []))
  {
    if frame.buffer.None? || !frame.buffer.value.isDirect then DecodeStep(ERROR, d, api)
    else
      var init := Prepare(d, api, frame, allocOk);
      if init.result == 0 then DecodeStep(ERROR, d, api)
      else
        var s := PushEncoded(d, init.api, frame, allocOk);
        if s.status == OK then
          SetUpThenDeliver(api, init.api, s.api, d.trackId.value, EncodedPayload(d, frame));
          s
        else s
  }

  /** The first decode of a fresh track with a non-empty direct buffer
      creates a 30-slot ring whose slots have 256 bytes of headroom, and
      leaves exactly that frame in it, unread. */
  lemma FirstDecodeCreatesRing(d: Decoder, api: NativeBufferApi.Api, frame: EncodedImage)
    requires api.Valid()
    requires d.trackId.Some? && d.trackId.value !in api.buffers && !d.ringInitialized
    requires frame.buffer.Some? && frame.buffer.value.isDirect && |frame.buffer.value.contents| > 0
    ensures var s := Decode(d, api, frame, true);
      && s.status == OK
      && s.decoder.ringInitialized
      && d.trackId.value in s.api.buffers
      && s.api.buffers[d.trackId.value].capacity == RingCapacity
      && (forall i :: 0 <= i < RingCapacity ==>
            s.api.buffers[d.trackId.value].slots[i].capacity == |frame.buffer.value.contents| + SlotHeadroom)
      && s.api.buffers[d.trackId.value].Unread() ==
           [Payload(Video, frame.captureTimeMs, frame.buffer.value.contents,
                    VideoInfo(frame.encodedWidth, frame.encodedHeight, frame.rotation, frame.frameType, d.codecType))]
  {
    var key := d.trackId.value;
    var bytes := frame.buffer.value.contents;
    var init := NativeBufferApi.InitNativeBufferFFI(api, d.trackId, RingCapacity, |bytes| + SlotHeadroom, true);
    var r := init.api.buffers[key];
    assert r.slots[r.writeIndex].capacity == |bytes| + SlotHeadroom;
    var p := Payload(Video, frame.captureTimeMs, bytes,
                     VideoInfo(frame.encodedWidth, frame.encodedHeight, frame.rotation, frame.frameType, d.codecType));
    assert r.Unread() + [p] == [p];
  }

  /** `release`: free the track's ring and port; the decoder itself, and so
      its "ring initialised" flag, is not changed. */
  function Release(d: Decoder, api: NativeBufferApi.Api): (s: DecodeStep)
    requires api.Valid()
    ensures s.status == OK && s.decoder == d
    ensures s.api.Valid()
    ensures d.trackId.Some? ==> d.trackId.value !in s.api.buffers && d.trackId.value !in s.api.ports
    ensures d.trackId.None? ==> s.api == api
    ensures forall k :: k in api.buffers && Some(k) != d.trackId ==> k in s.api.buffers && s.api.buffers[k] == api.buffers[k]
    ensures forall k :: k in api.ports && Some(k) != d.trackId ==> k in s.api.ports && s.api.ports[k] == api.ports[k]
    ensures forall k :: k in s.api.buffers ==> k in api.buffers
    ensures forall k :: k in s.api.ports ==> k in api.ports
    ensures s.api.armed == api.armed && s.api.posted == api.posted
  {
    DecodeStep(OK, d, NativeBufferApi.FreeNativeBufferFFI(api, d.trackId))
  }

  /** Because `release` keeps the flag, a decode after a release does not
      re-initialise the ring: the push finds no ring for the track and the
      decode reports ERROR without changing anything. */
  lemma DecodeAfterReleaseFails(d: Decoder, api: NativeBufferApi.Api, frame: EncodedImage, allocOk: bool)
    requires api.Valid() && d.ringInitialized
    ensures var r := Release(d, api);
      Decode(r.decoder, r.api, frame, allocOk) == DecodeStep(ERROR, d, r.api)
  {
  }
}
